=== FILE: README.md ===
# OpenSCAD batch mode, modelled in Dafny

This project models OpenSCAD's command-line entry point, `src/openscad.cc`.
It covers how `main` reads the parsed options and chooses between four
things:
- print the usage text, the version or the library information;
- refuse a malformed camera;
- start the GUI;
- run `cmdline`.

It also covers what `cmdline` does in a batch run. Concretely:
- how the output suffix selects one of ten formats;
- loading, parsing and instantiating the script, in which order and in which working directory;
- the three dump branches (CSG tree, AST, CSG term);
- when the geometry is evaluated;
- the dependency file;
- the dimension check of `checkAndExport`;
- the PNG export;
- the exit status.

Every call into code outside this file is given as a parameter, as an
`Env` record of outcomes. These calls are:
- opening files;
- parsing;
- the `!`-tagged root;
- the evaluated geometry and its dimension;
- whether the CSG term exists (the term dump depends on it);
- whether the build has CGAL;
- whether the destination opens;
- whether the dependency file is written.

A batch run is described by a trace: the sequence of steps it performs.
Each step is an action together with the directory it runs in, either the
invoker's or the document's.

Files:

- `wrappers.dfy`: `Option` and `Result`.
- `text.dfy` (module `Text`): the string operations the source relies on.
  - ASCII lower-casing (`boost::algorithm::to_lower`);
  - the extension of a path (`boosty::extension_str`);
  - splitting at a separator (`boost::split`).
- `command_line.dfy` (module `CommandLine`): `get_camera` and `main`'s option handling.
  - `CameraSpec` and `LaunchSpec` are the specification functions.
  - `GetCamera`, `ChooseRenderer`, `SelectOutputOption`, `AppendDefinitions` and `SelectLaunch` are the imperative code proved against them.
- `batch.dfy` (module `Batch`): `cmdline` and `checkAndExport`.
  - `Run` specifies a whole run. `Dispatch` specifies the run once a format has been selected.
  - `Dispatch` is put together from `Loading`, `Building`, `DumpStage` and `RenderStage`. `RenderStage` calls `DepsStage`, which calls `ExportStep`.
  - The methods `Cmdline` … `ExportStage` follow the source branch by branch. Each is proved equal to its stage function.
- `batch_properties.dfy` (module `BatchProperties`): the properties of a batch run, proved about those functions.
- `pipeline.dfy` (module `Pipeline`): `main` end to end, from options to exit status, plus a few concrete invocations.

## Model

| member | source | states |
|---|---|---|
| Text.ToLower | src/openscad.cc:260 | lower-casing keeps the length and maps each character through ASCII lower-casing |
| Text.LowerCharKeepsPunctuation | src/openscad.cc:260 | lower-casing neither creates nor removes a '.' or a '/' |
| Text.ToLowerIdempotent | src/openscad.cc:260 | lower-casing twice is lower-casing once |
| Text.BaseName | src/openscad.cc:259 | the last path component contains no '/' and is no longer than the path |
| Text.BaseNameIsTail | src/openscad.cc:259 | the last component is the path's tail, preceded by a '/' or by nothing; with no '/' in it, it is the part after the last '/' |
| Text.DotSuffix | src/openscad.cc:259 | the suffix is empty or starts with its only '.'; it is empty only when the name has no '.' |
| Text.DotSuffixIsTail | src/openscad.cc:259 | the suffix is the name's own tail, so with one '.' at its head it runs from the last '.' to the end |
| Text.Extension | src/openscad.cc:259 | a path's extension is empty or a '.' followed by no '.' or '/' |
| Text.ExtensionIsTail | src/openscad.cc:259 | a path's extension is the path's own tail |
| Text.BaseNameAppend | src/openscad.cc:259 | appending a tail without '/' appends it to the last component |
| Text.DotSuffixAppend | src/openscad.cc:259 | a name ending in a well-formed suffix has that suffix |
| Text.ExtensionOfNamed | src/openscad.cc:259 | a path ending in a well-formed extension has exactly that extension |
| Text.Split | src/openscad.cc:162 | splitting yields at least one field, and no field contains the separator |
| Text.SplitCount | src/openscad.cc:162-163 | a string with k separators splits into k + 1 fields (the camera and imgsize arity tests) |
| Text.JoinSplit | src/openscad.cc:162 | joining the fields with the separator gives the original string back |
| CommandLine.CameraSpec | src/openscad.cc:155-215 | specification: --camera needs 6 or 7 comma-separated fields, --projection one of o/ortho/orthogonal/p/perspective, --imgsize 2 fields, checked in that order with the first failure reported; otherwise the camera with the flags, projection and size |
| CommandLine.RendererFor | src/openscad.cc:669-674 | specification: OpenCSG, CGAL under --render, ThrownTogether under --preview=throwntogether |
| CommandLine.Definitions | src/openscad.cc:706-711 | specification: the -D values in order, each followed by ";\n" |
| CommandLine.ProjectionNamed | src/openscad.cc:186-195 | specification: o, ortho and orthogonal name the orthogonal projection, p and perspective the perspective one, anything else none |
| CommandLine.OutputOptions | src/openscad.cc:680-694 | specification: the files given with -o, -s and -x, in that order |
| CommandLine.LaunchSpec | src/openscad.cc:651-757 | specification of main's decision: parse error, help, version, info, several output options, several inputs, camera error, then batch over the single input, GUI, or usage when there is no display |
| CommandLine.GetCamera | src/openscad.cc:155-215 | get_camera returns the camera or the first error, exactly as CameraSpec defines |
| CommandLine.CameraArityRule | src/openscad.cc:159-172 | --camera is refused exactly when it does not split into 6 or 7 fields, i.e. does not hold 5 or 6 commas |
| CommandLine.ImgsizeArityRule | src/openscad.cc:199-212 | when --camera and --projection are acceptable, --imgsize is refused exactly when it does not hold one comma |
| CommandLine.CameraKeepsFields | src/openscad.cc:178-214 | an accepted camera holds --camera's fields and --imgsize's two fields unchanged, so joining either with commas gives back the option text; without --imgsize it has the render settings' default size |
| CommandLine.RendererRules | src/openscad.cc:669-674 | OpenCSG by default, CGAL with --render, ThrownTogether with --preview=throwntogether whatever --render says, and any other preview value changes nothing |
| CommandLine.ChooseRenderer | src/openscad.cc:669-674 | the renderer main picks, stated as the same rules |
| CommandLine.AppendDefinitions | src/openscad.cc:706-711 | the loop appends each -D value and then ";\n", in order, to the command text |
| CommandLine.DefinitionsAppend | src/openscad.cc:706-711 | the -D text of two lists in a row is the -D text of each, concatenated |
| CommandLine.DefinitionPlaced | src/openscad.cc:706-711 | the k-th -D value and its ";\n" sit right after the text of the first k values |
| CommandLine.SelectOutputOption | src/openscad.cc:680-694 | -o, -s and -x together give at most one output file; a second one is a usage error |
| CommandLine.SelectLaunch | src/openscad.cc:651-757 | the order of main's checks (parse error, help, version, info, several output options, several inputs, camera, output without input, batch, GUI, no display), as LaunchSpec defines |
| CommandLine.OneOutputOption | src/openscad.cc:680-694 | a batch run has exactly one output option and uses it; two or more end in usage |
| Batch.SuffixInjective | src/openscad.cc:262-271 | no two formats share a suffix |
| Batch.FormatOfSuffixRoundTrip | src/openscad.cc:262-271 | each format is selected by its own suffix and by nothing else |
| Batch.OnlyFileSelects | src/openscad.cc:262-271 | the echo pointer is set exactly for echo, the echo or PNG pointer exactly for those two, and a dump pointer exactly for the three dumps |
| Batch.OnlyFilePointers | src/openscad.cc:262-271 | the selected format sets its own pointer to the output path and leaves the other nine null |
| Batch.SuffixOf | src/openscad.cc:262-271 | specification: the lower-case suffix compared against for each of the ten formats |
| Batch.FormatOfSuffix | src/openscad.cc:262-271 | specification: the format whose suffix a string is, or none when no branch of the if-chain matches |
| Batch.OutputFormat | src/openscad.cc:259-271 | specification: the output path's extension, lower-cased, looked up among the ten suffixes |
| Batch.RequiredDimension | src/openscad.cc:406-429 | specification: 3 for STL, OFF and AMF, 2 for DXF and SVG, none for the other formats |
| Batch.EvaluatesGeometry | src/openscad.cc:371-375 | specification: the geometry is evaluated for the five geometry formats, and for echo and PNG only under CGAL |
| Batch.HasDepsTarget | src/openscad.cc:388-394 | specification: STL, OFF, AMF, DXF, SVG and PNG name a dependency target |
| Batch.ScriptText | src/openscad.cc:301-302 | specification: the parsed text is the file's contents, a newline, then the -D commands |
| Batch.ChooseRoot | src/openscad.cc:319-321 | specification: the `!`-tagged node when there is one, else the top-level group |
| Batch.PngStage | src/openscad.cc:431-446 | specification: a non-fatal message when the PNG cannot be opened, else the open and the renderer's raster with the camera |
| Batch.Run | src/openscad.cc:235-453 | specification of cmdline: an unknown suffix returns 1 after its message, a known one runs Dispatch on its format |
| Batch.Dispatch | src/openscad.cc:283-453 | specification: loading, then an unopenable input or failed parse returns 1, else building followed by the dump branch (status 0) or the final branch |
| Batch.Loading | src/openscad.cc:283-296 | specification: the echo stream for echo output, the input registered as a dependency, the input opened |
| Batch.Building | src/openscad.cc:300-323 | specification: parse, module dependencies, move to the document directory, instantiation, choice of root |
| Batch.DumpStage | src/openscad.cc:325-368 | specification of the csg, ast and term branches: the term evaluated for .term, the move back to the invoker's directory, then the open (or its non-fatal failure) and the write, csg and ast from the document directory |
| Batch.RenderStage | src/openscad.cc:369-383 | specification of the final branch: no CGAL returns 1; the evaluation when the table asks for it; no top-level object returns 1; else the move back to the invoker's directory and DepsStage |
| Batch.DepsStage | src/openscad.cc:385-404 | specification: with a dependency file, a format without target returns 1, a failed write returns 1, else the write precedes ExportStep |
| Batch.ExportStep | src/openscad.cc:406-446 | specification: the checked geometry export, the PNG (open or non-fatal failure, then the renderer's raster), or nothing for echo; status 1 only for a dimension mismatch |
| Batch.SelectOutput | src/openscad.cc:259-275 | the suffix is known exactly when the lower-cased extension is one of the ten, and then only that format's output file is set |
| Batch.CheckAndExport | src/openscad.cc:224-233 | the export succeeds exactly when the geometry has the required dimension; it writes the file only then, and otherwise reports the dimension error alone |
| Batch.Cmdline | src/openscad.cc:235-454 | cmdline's exit status and trace equal the run specification Run |
| Batch.LoadAndDispatch | src/openscad.cc:283-453 | once a format is selected, the code from the echo stream to `return 0` equals Dispatch |
| Batch.LoadScript | src/openscad.cc:283-323 | the script is loaded exactly when the input opens and parses; each failure aborts with its own diagnostic; on success, the trace is the loading steps followed by the building steps |
| Batch.DumpBranch | src/openscad.cc:325-368 | the csg, ast and term branches equal DumpStage |
| Batch.FinalBranch | src/openscad.cc:369-383 | the final branch (evaluation gate, missing CGAL, no top-level object, return to the invoker's directory) equals RenderStage |
| Batch.DepsBranch | src/openscad.cc:385-404 | the dependency file and the export equal DepsStage |
| Batch.DepsTarget | src/openscad.cc:388-394 | the dependency target is the output file for STL, OFF, AMF, DXF, SVG and PNG, and there is none otherwise |
| Batch.ExportStage | src/openscad.cc:406-446 | the geometry exports and the PNG export equal ExportStep |
| BatchProperties.LoadingSteps | src/openscad.cc:283-299 | loading writes no dependency file, never opens the destination for export, evaluates nothing, and opens the echo stream and the input from the invoker's directory; it opens the echo stream, which creates the destination, exactly when the format is echo |
| BatchProperties.LoadingEchoTimes | src/openscad.cc:284-285 | loading opens the echo stream once for echo output and never otherwise |
| BatchProperties.BuildingSteps | src/openscad.cc:304-323 | building opens and writes no output file, opens no echo stream, evaluates nothing, and instantiates from the document directory |
| BatchProperties.BuiltSteps | src/openscad.cc:283-323 | loading followed by building writes no dependency file, never opens the destination for export and evaluates nothing; the echo stream is opened in it exactly when the format is echo |
| BatchProperties.RunDispatches | src/openscad.cc:259-275 | with a known suffix, the run is the dispatch on that suffix's format |
| BatchProperties.EarlyExitSteps | src/openscad.cc:283-308 | a run that stops before building writes no dependency file, never opens the destination for export and evaluates nothing; an echo run has nonetheless opened its echo stream, so its destination exists |
| BatchProperties.AbortSettled | src/openscad.cc:296-308 | an abort after steps that opened nothing for export ends with status 1 on a fatal diagnostic, still having opened nothing for export, and adds no opening of the echo stream |
| BatchProperties.ExportStepSteps | src/openscad.cc:406-446 | the export never evaluates, never opens the echo stream, and opens and writes only from the invoker's directory |
| BatchProperties.CheckAndExportSteps | src/openscad.cc:224-233 | checkAndExport's steps never evaluate, never open the echo stream, and run in the invoker's directory |
| BatchProperties.PngStageSteps | src/openscad.cc:431-446 | the PNG export never evaluates, never opens the echo stream, and runs in the invoker's directory |
| BatchProperties.DepsStageSteps | src/openscad.cc:385-446 | the dependency stage never evaluates and runs in the invoker's directory |
| BatchProperties.DepsStageNoEcho | src/openscad.cc:385-446 | the dependency stage never opens the echo stream |
| BatchProperties.ExportStepStatus | src/openscad.cc:406-446 | the export's status is 0 or 1, and it is 1 exactly when it ends on a fatal diagnostic, in which case nothing was written |
| BatchProperties.DepsStageStatus | src/openscad.cc:385-446 | the same for the dependency stage |
| BatchProperties.DispatchAfterBuilding | src/openscad.cc:304-453 | a built script's run is loading, then building, then the dump or final branch |
| BatchProperties.DispatchStartsWithLoading | src/openscad.cc:283-299 | every run with a known suffix starts with the loading steps and goes on past them |
| BatchProperties.OutputFormatIgnoresCase | src/openscad.cc:259-271 | any upper/lower-case spelling of a format's suffix selects that format, whatever comes before it |
| BatchProperties.SuffixesAreLowerCase | src/openscad.cc:262-271 | the ten suffixes are lower case already |
| BatchProperties.SuffixSelects | src/openscad.cc:259-271 | a path ending in a format's suffix selects that format |
| BatchProperties.UnknownSuffixRule | src/openscad.cc:259-275 | a path selects no format exactly when its lower-cased extension is none of the ten suffixes |
| BatchProperties.SelectedSuffixEndsPath | src/openscad.cc:259-271 | a path that selects a format ends in some upper/lower-case spelling of that format's suffix |
| BatchProperties.SuffixSelectsExactly | src/openscad.cc:259-271 | a path selects a format if and only if it ends in some upper/lower-case spelling of that format's suffix (so `dir.stl/out` selects nothing) |
| BatchProperties.UnknownSuffixTouchesNothing | src/openscad.cc:272-275 | an unknown suffix returns 1 after one message, before anything is opened, registered or parsed |
| BatchProperties.InputRegisteredBeforeOpened | src/openscad.cc:283-296 | the input is registered as a dependency immediately before it is opened; only the echo stream comes first |
| BatchProperties.UnreadableInputNeverParsed | src/openscad.cc:295-299 | an input that does not open ends the run with 1 right after the open: nothing is parsed |
| BatchProperties.ParseThenInstantiate | src/openscad.cc:300-323 | the parser sees the file, "\n" and the -D text; a failed parse returns 1 at once; otherwise come the module dependencies, the move to the document directory, the instantiation there, and the root (the tagged node, else the top-level group) |
| BatchProperties.GeometryEvaluationTable | src/openscad.cc:371-380 | dumps never evaluate; echo and PNG evaluate only with CGAL; STL, OFF, AMF, DXF and SVG always evaluate |
| BatchProperties.RenderStageSkipsEvaluation | src/openscad.cc:371-380 | without CGAL, or for a format that does not need geometry, the final branch never evaluates |
| BatchProperties.RenderStageEvaluatesFirst | src/openscad.cc:371-380 | otherwise the evaluation is its first step, and none follows |
| BatchProperties.RenderStageEvaluations | src/openscad.cc:371-380 | the final branch evaluates once when CGAL is built in and the format needs geometry, never otherwise |
| BatchProperties.DumpStageSteps | src/openscad.cc:325-368 | the dump branches never evaluate the geometry or open the echo stream, and write from the directory each file needs |
| BatchProperties.StageEvaluations | src/openscad.cc:325-451 | whichever branch follows building evaluates as the table says |
| BatchProperties.DispatchEvaluations | src/openscad.cc:283-453 | after the suffix, the geometry is evaluated once if the script was built, CGAL is built in and the format needs it, and never otherwise |
| BatchProperties.GeometryEvaluatedAtMostOnce | src/openscad.cc:235-453 | the geometry is evaluated at most once, and exactly when the suffix is known, the script was built, CGAL is present and the format needs it |
| BatchProperties.EmptyGeometryAborts | src/openscad.cc:376-380 | an evaluation with no top-level object returns 1 before the dependency file is written or the destination opened for export; the echo stream has been opened exactly when the format is echo |
| BatchProperties.EmptyGeometryTrace | src/openscad.cc:371-380 | with no top-level object the run is loading, building, the evaluation and the message, with status 1 |
| BatchProperties.RenderStageDimension | src/openscad.cc:385-429 | in the final branch of a geometry format, the export follows the dimension check |
| BatchProperties.DimensionGate | src/openscad.cc:406-429 | STL, OFF and AMF need dimension 3, DXF and SVG need 2; a match writes the file and returns 0, a mismatch returns 1 without opening it; a requested dependency file is written first either way |
| BatchProperties.DumpsIgnoreDeps | src/openscad.cc:325-368 | the dump branches behave the same with or without a dependency file |
| BatchProperties.DepsTargetTable | src/openscad.cc:388-394 | the formats with a dependency target are STL, OFF, AMF, DXF, SVG and PNG |
| BatchProperties.DepsFileRule | src/openscad.cc:385-404 | a dependency file requested with echo output, which has no target, returns 1 right after the return to the invoker's directory; with a target, the file is always written naming the output (so `.png` with a dependency file writes it before the PNG export), and a failed write returns 1 right after it |
| BatchProperties.DumpWritten | src/openscad.cc:325-368 | an openable dump destination returns 0 after writing the tree, the AST or the term (or the no-term notice); csg and ast are written from the document directory, the term from the invoker's |
| BatchProperties.UnopenableDumpStillSucceeds | src/openscad.cc:325-368 | an unopenable dump destination is reported, nothing is written, and the run still returns 0 |
| BatchProperties.UnopenablePngStillSucceeds | src/openscad.cc:431-436 | an unopenable PNG destination is reported, the destination is never opened or written, and the run still returns 0 |
| BatchProperties.PngRenderer | src/openscad.cc:431-446 | a PNG comes from the geometry under CGAL, from ThrownTogether products or from OpenCSG products, using the camera from the options |
| BatchProperties.RenderStageDirs | src/openscad.cc:369-451 | the final branch runs each step in the directory it needs |
| BatchProperties.DirectoriesRespected | src/openscad.cc:235-453 | the steps that resolve a path run in the directory they need: the echo stream, the input, every destination opened for export, the dependency file and the geometry export from the invoker's directory; the instantiation and the CSG tree and AST texts from the document's (the term and PNG writes go to a stream already opened, so they have no directory of their own) |
| BatchProperties.RenderStageStatus | src/openscad.cc:369-451 | the final branch's status is 1 exactly when it ends on a fatal diagnostic, and then it opened nothing |
| BatchProperties.DumpStageEnds | src/openscad.cc:325-368 | a dump branch never ends on a fatal diagnostic |
| BatchProperties.DispatchStatus | src/openscad.cc:283-453 | after the suffix, the status is 0 or 1, and it is 1 exactly when the run ends on a fatal diagnostic, with the destination never opened for export; the echo stream is opened once in an echo run and never in any other |
| BatchProperties.DispatchEchoOpens | src/openscad.cc:283-453 | a run opens the echo stream exactly once when the format is echo and never otherwise |
| BatchProperties.AfterLoadingNoEcho | src/openscad.cc:293-453 | after the loading steps no step opens the echo stream |
| BatchProperties.RenderStageNoEcho | src/openscad.cc:369-451 | the final branch never opens the echo stream |
| BatchProperties.ExitStatusMeaning | src/openscad.cc:235-453 | cmdline returns 0 or 1, and 1 exactly when it ends on a fatal diagnostic; a failed run never opened the destination for export; the echo stream is opened once when the suffix selects echo output, so a failed echo run leaves its destination created, and never otherwise |
| Pipeline.Launched | src/openscad.cc:595-757 | specification of main: 1 for usage, version and a rejected camera, 0 or 1 for info, the GUI's status, or Run for a batch job |
| Pipeline.Process | src/openscad.cc:595-757 | main's status and trace equal Launched: 1 for usage and version, 0 or 1 for info, 1 for a rejected camera, the GUI's own status, or cmdline's |
| Pipeline.ExitStatusIsBinary | src/openscad.cc:101-153 | outside the GUI, main ends with 0 or 1, and only a batch run does any work |
| Pipeline.BatchParsesDefinitions | src/openscad.cc:301-304 | in a batch run, the parser sees the input, a newline and then the -D assignments |
| Pipeline.ScriptHoldsDefinition | src/openscad.cc:706-711 | each -D assignment appears in the parsed script in order, followed by ";\n" |
| Pipeline.PlainBatchLaunch | src/openscad.cc:669-748 | `openscad -o out in` launches a batch job with OpenCSG, no dependency file and no -D |
| Pipeline.PlainBatchRuns | src/openscad.cc:743-744 | that invocation is cmdline's run on those arguments |
| Pipeline.PlainBatchDispatches | src/openscad.cc:259-275 | with a known suffix, it is the dispatch on that suffix's format |
| Pipeline.SolidToStl | src/openscad.cc:406-409 | a 3D script exported to .stl returns 0, evaluates exactly once and ends by writing the STL |
| Pipeline.SolidToCsg | src/openscad.cc:325-336 | the same script dumped to .csg returns 0, never evaluates, and writes the tree from the document directory |
| Pipeline.CsgDump | src/openscad.cc:325-336 | the CSG dump, stated on the dispatch |
| Pipeline.NothingToOff | src/openscad.cc:376-380 | a script with no top-level object exported to .off returns 1, never opens the destination for export and never opens the echo stream, so no output file is touched |
| Pipeline.FlatToStl | src/openscad.cc:406-409 | a 2D object exported to .stl returns 1 with the 3D dimension error and never opens or writes the destination |
| Pipeline.UnreadableInput | src/openscad.cc:293-299 | an unreadable input gives exactly: register it, try to open it, report the failure; status 1 |

## Left out

- The GUI (`gui`, `QtUseGUI`) is not modelled. Whether a display is available is a parameter (`Host`), and the GUI's exit status is a parameter of `Launched`.
- The texts of help, version and info are not modelled; only their exit statuses are. Whether info's offscreen view can be created is a parameter.
- Parsing, instantiation, `find_root_tag`, geometry evaluation, the exporters and the renderers are abstracted as the outcomes in `Env`. The model records which of them is called, in what order and where. It does not model what they compute.
- `handle_dep`, `write_deps` and `make_command` are modelled only as steps. Their internals (running the make command for a missing file, the format of the dependency file) are not part of this model.
- Number conversion (`lexical_cast<double>`, `lexical_cast<int>`), `Camera::setup` and `gimbalDefaultTranslate` are not modelled. The camera keeps the raw --camera text, and the image size keeps the --imgsize fields. A conversion that throws is not modelled.
- `--csglimit` and `--debug` are carried into the batch job as values. Their effects are not modelled: the CSG term limit of the OpenCSG preview, and the debug output.
- Filesystem behaviour is not modelled: absolute paths, `parent_path`, and failure of `current_path`. The two directories are the abstract values `Invoker` and `Document`.
- Windows path separators are not modelled. Lower-casing is ASCII only.
- The echo stream's redirection of output is modelled only as the step that opens it.
- The `-d` and `-m` duplicate checks at lines 696 and 701 are not modelled. The pointers they test are still null at that point, so the checks never fire. The same holds for the check on the first of -o/-s/-x at line 682.
- The deprecation notices for -s and -x are not modelled.
- Boost's option parser is not modelled. The model starts from the options it produced; whether it threw is the `unparsable` flag.
- `--enable`, which exists only when built with experimental features, is not modelled.
- The model assumes a build without multiple-document support, so more than one input file is a usage error.
- The setup calls and teardown are not modelled: `parser_init`, the builtins, `delete root_node`, and the node cache.

=== FILE: batch.dfy ===
/**
 * The batch run (src/openscad.cc, cmdline and checkAndExport): the output
 * format chosen from the output file's suffix, loading and parsing the
 * script, instantiating it and choosing its root, then exactly one of the
 * dump branches (CSG tree, AST, CSG term) or the final branch (optional
 * geometry evaluation, dependency file, geometry export or PNG).
 *
 * The parser, root-tag search, evaluators, exporters, dependency writer
 * and the file system are foreign calls: an Env value gives their
 * outcomes. Every observable effect is recorded in a trace of steps, each
 * tagged with the working directory it happens in.
 */
module Batch {
  import opened Wrappers
  import opened Text
  import opened CommandLine

  datatype Format = Stl | Off | Amf | Dxf | Svg | Csg | Png | Ast | Term | Echo

  /** The lower-case suffix that selects each format. */
  function SuffixOf(f: Format): string
  {
    match f
    case Stl => ".stl"
    case Off => ".off"
    case Amf => ".amf"
    case Dxf => ".dxf"
    case Svg => ".svg"
    case Csg => ".csg"
    case Png => ".png"
    case Ast => ".ast"
    case Term => ".term"
    case Echo => ".echo"
  }

  /** No two formats share a suffix. */
  lemma SuffixInjective(f: Format, g: Format)
    ensures SuffixOf(f) == SuffixOf(g) ==> f == g
  {
  }

  /** The format whose suffix is `suffix`, if there is one. */
  ghost function FormatOfSuffix(suffix: string): Option<Format>
  {
    if exists f :: SuffixOf(f) == suffix then Some(var f :| SuffixOf(f) == suffix; f) else None
  }

  /** Each format is selected by its own suffix, and a suffix selects only the format it belongs to. */
  lemma FormatOfSuffixRoundTrip(f: Format)
    ensures FormatOfSuffix(SuffixOf(f)) == Some(f)
    ensures forall s :: FormatOfSuffix(s) == Some(f) ==> s == SuffixOf(f)
  {
    forall g | SuffixOf(g) == SuffixOf(f)
      ensures g == f
    {
      SuffixInjective(f, g);
    }
  }

  /** The format of an output path: its extension, lower-cased, looked up. */
  ghost function OutputFormat(path: string): Option<Format>
  {
    FormatOfSuffix(ToLower(Extension(path)))
  }

  /** Formats written by the three dump branches; every other format takes the final branch. */
  predicate IsDump(f: Format)
  {
    f == Csg || f == Ast || f == Term
  }

  /** The dimension a geometry exporter demands: 3 for solids, 2 for drawings. */
  function RequiredDimension(f: Format): Option<nat>
  {
    if f == Stl || f == Off || f == Amf then Some(3)
    else if f == Dxf || f == Svg then Some(2)
    else None
  }

  /**
   * Whether the final branch evaluates the geometry: always for the
   * geometry formats, for echo and PNG output only with the Cgal renderer.
   */
  predicate EvaluatesGeometry(f: Format, r: Renderer)
  {
    RequiredDimension(f).Some? || ((f == Echo || f == Png) && r == Cgal)
  }

  /** Formats for which a dependency file can name a target. */
  predicate HasDepsTarget(f: Format)
  {
    RequiredDimension(f).Some? || f == Png
  }

  datatype Dir = Invoker | Document

  /** The node evaluation starts from: the one tagged with '!', or the synthetic top-level group. */
  datatype Root = ExplicitRoot(node: nat) | TopLevelGroup

  /** The content written to an output file. */
  datatype Writer =
    | NodeTree                            // the CSG tree text of the root node
    | ModuleAst                           // the dump of the parsed module
    | CsgTermDump                         // the evaluated CSG term
    | NoTermNotice                        // "No top-level CSG object"
    | GeometryExport                      // the geometry exporter for the format
    | PngFromGeometry(camera: Camera)     // raster of the evaluated geometry
    | PngOpenCsg(camera: Camera)          // OpenCSG preview raster
    | PngThrownTogether(camera: Camera)   // thrown-together preview raster

  /** Diagnostics the run prints. */
  datatype Diagnostic =
    | UnknownSuffix
    | CantOpenInput
    | CantParse
    | NoCgal
    | NoTopLevelObject
    | NoDepsTarget
    | DepsWriteFailed
    | NotDimension(required: nat)
    | CantOpenOutput(format: Format)

  /** Every diagnostic but a failed open of a dump or PNG destination ends the run. */
  predicate Fatal(d: Diagnostic)
  {
    !d.CantOpenOutput?
  }

  datatype Action =
    | OpenEcho                            // the echo stream is opened on the output file
    | RegisterDep(path: string)           // the file is recorded as a dependency
    | OpenInput(path: string)
    | Parse(text: string)
    | ModuleDependencies                  // the parsed module loads what it uses
    | Chdir(to: Dir)
    | Instantiate                         // fresh node indices; the script is instantiated under a group
    | SetRoot(root: Root)
    | EvalTerm
    | EvalGeometry
    | WriteDeps(file: string, target: string)
    | OpenOutput(format: Format)
    | Write(format: Format, writer: Writer)
    | Message(diagnostic: Diagnostic)

  datatype Step = Step(cwd: Dir, action: Action)

  /** The outcomes of the foreign calls of one run. */
  datatype Env = Env(
    cgal: bool,                 // built with geometry evaluation support
    inputReadable: bool,
    contents: string,
    parses: bool,
    rootTag: Option<nat>,       // the node find_root_tag returns, if any
    termPresent: bool,          // the CSG term evaluator returned a term
    geometry: Option<nat>,      // the dimension of the evaluated geometry; None when there is none
    depsWritten: bool,
    outputOpens: bool)          // the dump or PNG destination can be opened

  datatype Outcome = Outcome(code: int, trace: seq<Step>)

  /** The script handed to the parser: the file, a newline, then the command-line assignments. */
  function ScriptText(contents: string, commands: string): string
  {
    contents + "\n" + commands
  }

  function ChooseRoot(tagged: Option<nat>): Root
  {
    if tagged.Some? then ExplicitRoot(tagged.value) else TopLevelGroup
  }

  function Abort(t: seq<Step>, cwd: Dir, d: Diagnostic): Outcome
  {
    Outcome(1, t + [Step(cwd, Message(d))])
  }

  datatype Export = Export(ok: bool, steps: seq<Step>)

  /**
   * checkAndExport: the geometry goes to the exporter only when its
   * dimension is the required one; otherwise a diagnostic names the
   * required dimension.
   */
  function CheckAndExport(dim: nat, required: nat, f: Format, cwd: Dir): (e: Export)
    ensures e.ok <==> dim == required
    ensures e.ok <==> Step(cwd, Write(f, GeometryExport)) in e.steps
    ensures !e.ok ==> e.steps == [Step(cwd, Message(NotDimension(required)))]
  {
    if dim != required then Export(false, [Step(cwd, Message(NotDimension(required)))])
    else Export(true, [Step(cwd, Write(f, GeometryExport))])
  }

  function PngWriter(r: Renderer, camera: Camera): Writer
  {
    match r
    case Cgal => PngFromGeometry(camera)
    case ThrownTogether => PngThrownTogether(camera)
    case OpenCsg => PngOpenCsg(camera)
  }

  /** The dump branches: CSG tree and AST are written from the document directory, the term from the invoker's. */
  function DumpStage(f: Format, env: Env): seq<Step>
    requires IsDump(f)
  {
    var evaluated := if f == Term then [Step(Document, EvalTerm)] else [];
    var written :=
      if !env.outputOpens then [Step(Invoker, Message(CantOpenOutput(f)))]
      else if f == Term then
        [Step(Invoker, OpenOutput(f)), Step(Invoker, Write(f, if env.termPresent then CsgTermDump else NoTermNotice))]
      else
        [Step(Invoker, OpenOutput(f)), Step(Invoker, Chdir(Document)),
         Step(Document, Write(f, if f == Csg then NodeTree else ModuleAst))];
    evaluated + [Step(Document, Chdir(Invoker))] + written
  }

  function PngStage(renderer: Renderer, camera: Camera, env: Env): seq<Step>
  {
    if !env.outputOpens then [Step(Invoker, Message(CantOpenOutput(Png)))]
    else [Step(Invoker, OpenOutput(Png)), Step(Invoker, Write(Png, PngWriter(renderer, camera)))]
  }

  /** The final branch, after the script has been instantiated. */
  function RenderStage(f: Format, deps: Option<string>, output: string, camera: Camera,
                       renderer: Renderer, env: Env, t: seq<Step>): Outcome
    requires !IsDump(f)
  {
    if !env.cgal then Abort(t, Document, NoCgal)
    else
      var evaluates := EvaluatesGeometry(f, renderer);
      var t1 := t + (if evaluates then [Step(Document, EvalGeometry)] else []);
      if evaluates && env.geometry.None? then Abort(t1, Document, NoTopLevelObject)
      else DepsStage(f, deps, output, camera, renderer, env, t1 + [Step(Document, Chdir(Invoker))])
  }

  /** Back in the invoker's directory: the dependency file, then the export. */
  function DepsStage(f: Format, deps: Option<string>, output: string, camera: Camera,
                     renderer: Renderer, env: Env, t2: seq<Step>): Outcome
    requires !IsDump(f) && (RequiredDimension(f).Some? ==> env.geometry.Some?)
  {
    if deps.Some? && !HasDepsTarget(f) then Abort(t2, Invoker, NoDepsTarget)
    else
      var t3 := t2 + (if deps.Some? then [Step(Invoker, WriteDeps(deps.value, output))] else []);
      if deps.Some? && !env.depsWritten then Abort(t3, Invoker, DepsWriteFailed)
      else ExportStep(f, camera, renderer, env, t3)
  }

  /** The export: a checked geometry export, a PNG, or nothing more for echo output. */
  function ExportStep(f: Format, camera: Camera, renderer: Renderer, env: Env, t3: seq<Step>): Outcome
    requires !IsDump(f) && (RequiredDimension(f).Some? ==> env.geometry.Some?)
  {
    match RequiredDimension(f)
    case Some(nd) =>
      var e := CheckAndExport(env.geometry.value, nd, f, Invoker);
      Outcome(if e.ok then 0 else 1, t3 + e.steps)
    case None =>
      Outcome(0, t3 + (if f == Png then PngStage(renderer, camera, env) else []))
  }

  /** The steps up to the attempt to open the input: the echo stream first, then the dependency. */
  function Loading(f: Format, input: string): seq<Step>
  {
    (if f == Echo then [Step(Invoker, OpenEcho)] else [])
    + [Step(Invoker, RegisterDep(input)), Step(Invoker, OpenInput(input))]
  }

  /** The steps from parsing to choosing the root, when the parse succeeds. */
  function Building(text: string, rootTag: Option<nat>): seq<Step>
  {
    [Step(Invoker, Parse(text)), Step(Invoker, ModuleDependencies), Step(Invoker, Chdir(Document)),
     Step(Document, Instantiate), Step(Document, SetRoot(ChooseRoot(rootTag)))]
  }

  /**
   * The batch run as a specification: the exit status and the trace of
   * one run, stage by stage.
   */
  ghost function Run(deps: Option<string>, input: string, output: string, camera: Camera,
                     renderer: Renderer, commands: string, env: Env): Outcome
  {
    match OutputFormat(output)
    case None => Abort([], Invoker, UnknownSuffix)
    case Some(f) => Dispatch(f, deps, input, output, camera, renderer, commands, env)
  }

  /** The run once the suffix has selected format `f`. */
  function Dispatch(f: Format, deps: Option<string>, input: string, output: string, camera: Camera,
                    renderer: Renderer, commands: string, env: Env): Outcome
  {
    var loaded := Loading(f, input);
    if !env.inputReadable then Abort(loaded, Invoker, CantOpenInput)
    else
      var text := ScriptText(env.contents, commands);
      if !env.parses then Abort(loaded + [Step(Invoker, Parse(text))], Invoker, CantParse)
      else
        var built := loaded + Building(text, env.rootTag);
        if IsDump(f) then Outcome(0, built + DumpStage(f, env))
        else RenderStage(f, deps, output, camera, renderer, env, built)
  }

  /** The ten output file pointers of cmdline; the suffix sets at most one of them. */
  datatype OutputFiles = OutputFiles(
    stl: Option<string>, off: Option<string>, amf: Option<string>, dxf: Option<string>,
    svg: Option<string>, csg: Option<string>, png: Option<string>, ast: Option<string>,
    term: Option<string>, echo: Option<string>)

  const NoOutputFiles := OutputFiles(None, None, None, None, None, None, None, None, None, None)

  /** The pointers when `path` is written as format `f`: that pointer set, every other one null. */
  function OnlyFile(f: Format, path: string): OutputFiles
  {
    match f
    case Stl => NoOutputFiles.(stl := Some(path))
    case Off => NoOutputFiles.(off := Some(path))
    case Amf => NoOutputFiles.(amf := Some(path))
    case Dxf => NoOutputFiles.(dxf := Some(path))
    case Svg => NoOutputFiles.(svg := Some(path))
    case Csg => NoOutputFiles.(csg := Some(path))
    case Png => NoOutputFiles.(png := Some(path))
    case Ast => NoOutputFiles.(ast := Some(path))
    case Term => NoOutputFiles.(term := Some(path))
    case Echo => NoOutputFiles.(echo := Some(path))
  }

  lemma OnlyFileSelects(f: Format, path: string)
    ensures OnlyFile(f, path).echo.Some? <==> f == Echo
    ensures (OnlyFile(f, path).echo.Some? || OnlyFile(f, path).png.Some?) <==> f == Echo || f == Png
    ensures (OnlyFile(f, path).csg.Some? || OnlyFile(f, path).ast.Some? || OnlyFile(f, path).term.Some?) <==> IsDump(f)
  {
  }

  /** Format `f` sets exactly one pointer, its own, to the output path; the other nine stay null. */
  lemma OnlyFilePointers(f: Format, path: string)
    ensures var p := OnlyFile(f, path);
      && p.stl == (if f == Stl then Some(path) else None)
      && p.off == (if f == Off then Some(path) else None)
      && p.amf == (if f == Amf then Some(path) else None)
      && p.dxf == (if f == Dxf then Some(path) else None)
      && p.svg == (if f == Svg then Some(path) else None)
      && p.csg == (if f == Csg then Some(path) else None)
      && p.png == (if f == Png then Some(path) else None)
      && p.ast == (if f == Ast then Some(path) else None)
      && p.term == (if f == Term then Some(path) else None)
      && p.echo == (if f == Echo then Some(path) else None)
  {
  }

  /**
   * The start of cmdline: the lower-cased extension of the output path
   * sets the pointer of its format; `known` is false for any other
   * extension.
   */
  method SelectOutput(output: string) returns (files: OutputFiles, known: bool)
    ensures known <==> OutputFormat(output).Some?
    ensures known ==> files == OnlyFile(OutputFormat(output).value, output)
  {
    files := NoOutputFiles;
    ghost var fmt: Format;
    var suffix := ToLower(Extension(output));
    if suffix == ".stl" { files := files.(stl := Some(output)); fmt := Stl; }
    else if suffix == ".off" { files := files.(off := Some(output)); fmt := Off; }
    else if suffix == ".amf" { files := files.(amf := Some(output)); fmt := Amf; }
    else if suffix == ".dxf" { files := files.(dxf := Some(output)); fmt := Dxf; }
    else if suffix == ".svg" { files := files.(svg := Some(output)); fmt := Svg; }
    else if suffix == ".csg" { files := files.(csg := Some(output)); fmt := Csg; }
    else if suffix == ".png" { files := files.(png := Some(output)); fmt := Png; }
    else if suffix == ".ast" { files := files.(ast := Some(output)); fmt := Ast; }
    else if suffix == ".term" { files := files.(term := Some(output)); fmt := Term; }
    else if suffix == ".echo" { files := files.(echo := Some(output)); fmt := Echo; }
    else {
      assert forall f :: SuffixOf(f) != suffix;
      return files, false;
    }
    FormatOfSuffixRoundTrip(fmt);
    known := true;
  }

  /**
   * cmdline: the pointer for the suffix is set, the script is loaded,
   * parsed and instantiated from the document directory, then the dump
   * branches or the final branch run; every failure exits with status 1.
   */
  method Cmdline(deps: Option<string>, filename: string, camera: Camera, output: string,
                 renderer: Renderer, commands: string, env: Env)
    returns (rc: int, trace: seq<Step>)
    ensures Outcome(rc, trace) == Run(deps, filename, output, camera, renderer, commands, env)
  {
    var files, known := SelectOutput(output);
    if !known {
      return 1, [Step(Invoker, Message(UnknownSuffix))];
    }
    rc, trace := LoadAndDispatch(files, OutputFormat(output).value, deps, filename, camera, output,
                                 renderer, commands, env);
  }

  /**
   * The rest of cmdline once a pointer is set: the input is registered,
   * opened, parsed and instantiated from the document directory, then the
   * dump branches or the final branch run.
   */
  method LoadAndDispatch(files: OutputFiles, ghost fmt: Format, deps: Option<string>, filename: string,
                         camera: Camera, output: string, renderer: Renderer, commands: string, env: Env)
    returns (rc: int, trace: seq<Step>)
    requires files == OnlyFile(fmt, output)
    ensures Outcome(rc, trace) == Dispatch(fmt, deps, filename, output, camera, renderer, commands, env)
  {
    var loaded;
    loaded, rc, trace := LoadScript(files, fmt, filename, output, commands, env);
    if !loaded {
      return;
    }
    if files.csg.Some? || files.ast.Some? || files.term.Some? {
      var steps := DumpBranch(files, fmt, output, env);
      trace := trace + steps;
      rc := 0;
    } else {
      rc, trace := FinalBranch(files, fmt, deps, output, camera, renderer, env, trace);
    }
  }

  /**
   * Opening, parsing and instantiating the input: either the run ends
   * here, or the script is built and the trace holds the loading and
   * building steps.
   */
  method LoadScript(files: OutputFiles, ghost fmt: Format, filename: string, ghost output: string,
                    commands: string, env: Env)
    returns (loaded: bool, rc: int, trace: seq<Step>)
    requires files == OnlyFile(fmt, output)
    ensures loaded <==> env.inputReadable && env.parses
    ensures !env.inputReadable ==> Outcome(rc, trace) == Abort(Loading(fmt, filename), Invoker, CantOpenInput)
    ensures env.inputReadable && !env.parses ==>
      Outcome(rc, trace) == Abort(Loading(fmt, filename) + [Step(Invoker, Parse(ScriptText(env.contents, commands)))],
                                  Invoker, CantParse)
    ensures loaded ==> trace == Loading(fmt, filename) + Building(ScriptText(env.contents, commands), env.rootTag)
  {
    OnlyFileSelects(fmt, output);
    var cwd := Invoker;
    trace := [];
    if files.echo.Some? {
      trace := trace + [Step(cwd, OpenEcho)];
    }
    trace := trace + [Step(cwd, RegisterDep(filename))];
    trace := trace + [Step(cwd, OpenInput(filename))];
    assert trace == Loading(fmt, filename);
    if !env.inputReadable {
      trace := trace + [Step(cwd, Message(CantOpenInput))];
      return false, 1, trace;
    }
    var text := env.contents + "\n" + commands;
    trace := trace + [Step(cwd, Parse(text))];
    if !env.parses {
      trace := trace + [Step(cwd, Message(CantParse))];
      return false, 1, trace;
    }
    trace := trace + [Step(cwd, ModuleDependencies)];
    trace := trace + [Step(cwd, Chdir(Document))];
    cwd := Document;
    trace := trace + [Step(cwd, Instantiate)];
    var root := TopLevelGroup;
    if env.rootTag.Some? {
      root := ExplicitRoot(env.rootTag.value);
    }
    trace := trace + [Step(cwd, SetRoot(root))];
    return true, 0, trace;
  }

  /** The csg, ast and term branches of cmdline, entered in the document directory. */
  method DumpBranch(files: OutputFiles, ghost fmt: Format, output: string, env: Env)
    returns (steps: seq<Step>)
    requires IsDump(fmt) && files == OnlyFile(fmt, output)
    ensures steps == DumpStage(fmt, env)
  {
    var cwd := Document;
    steps := [];
    if files.csg.Some? || files.ast.Some? {
      var f := if files.csg.Some? then Csg else Ast;
      steps := steps + [Step(cwd, Chdir(Invoker))];
      cwd := Invoker;
      if !env.outputOpens {
        steps := steps + [Step(cwd, Message(CantOpenOutput(f)))];
      } else {
        steps := steps + [Step(cwd, OpenOutput(f))];
        steps := steps + [Step(cwd, Chdir(Document))];
        cwd := Document;
        if files.csg.Some? {
          steps := steps + [Step(cwd, Write(Csg, NodeTree))];
        } else {
          steps := steps + [Step(cwd, Write(Ast, ModuleAst))];
        }
      }
    } else {
      steps := steps + [Step(cwd, EvalTerm)];
      steps := steps + [Step(cwd, Chdir(Invoker))];
      cwd := Invoker;
      if !env.outputOpens {
        steps := steps + [Step(cwd, Message(CantOpenOutput(Term)))];
      } else {
        steps := steps + [Step(cwd, OpenOutput(Term))];
        if !env.termPresent {
          steps := steps + [Step(cwd, Write(Term, NoTermNotice))];
        } else {
          steps := steps + [Step(cwd, Write(Term, CsgTermDump))];
        }
      }
    }
  }

  /**
   * The final branch of cmdline, entered in the document directory after
   * `trace`: optional geometry evaluation, the dependency file, then the
   * export for the one pointer that is set.
   */
  method FinalBranch(files: OutputFiles, ghost fmt: Format, deps: Option<string>, output: string,
                     camera: Camera, renderer: Renderer, env: Env, trace0: seq<Step>)
    returns (rc: int, trace: seq<Step>)
    requires !IsDump(fmt) && files == OnlyFile(fmt, output)
    ensures Outcome(rc, trace) == RenderStage(fmt, deps, output, camera, renderer, env, trace0)
  {
    OnlyFileSelects(fmt, output);
    var cwd := Document;
    trace := trace0;
    if !env.cgal {
      trace := trace + [Step(cwd, Message(NoCgal))];
      return 1, trace;
    }
    var rootGeom: Option<nat> := None;
    if (files.echo.Some? || files.png.Some?) && renderer != Cgal {
      // echo output or a preview PNG: no geometry evaluation needed
    } else {
      trace := trace + [Step(cwd, EvalGeometry)];
      rootGeom := env.geometry;
      if rootGeom.None? {
        trace := trace + [Step(cwd, Message(NoTopLevelObject))];
        return 1, trace;
      }
    }
    assert trace == trace0 + (if EvaluatesGeometry(fmt, renderer) then [Step(Document, EvalGeometry)] else []);
    trace := trace + [Step(cwd, Chdir(Invoker))];
    rc, trace := DepsBranch(files, fmt, deps, output, camera, renderer, env, rootGeom, trace);
  }

  /** The dependency file and the export, in the invoker's directory. */
  method DepsBranch(files: OutputFiles, ghost fmt: Format, deps: Option<string>, output: string,
                    camera: Camera, renderer: Renderer, env: Env, rootGeom: Option<nat>, trace0: seq<Step>)
    returns (rc: int, trace: seq<Step>)
    requires !IsDump(fmt) && files == OnlyFile(fmt, output)
    requires RequiredDimension(fmt).Some? ==> rootGeom.Some? && rootGeom == env.geometry
    ensures Outcome(rc, trace) == DepsStage(fmt, deps, output, camera, renderer, env, trace0)
  {
    var cwd := Invoker;
    trace := trace0;
    if deps.Some? {
      var target := DepsTarget(files, fmt, output);
      if target.None? {
        trace := trace + [Step(cwd, Message(NoDepsTarget))];
        return 1, trace;
      }
      trace := trace + [Step(cwd, WriteDeps(deps.value, target.value))];
      if !env.depsWritten {
        trace := trace + [Step(cwd, Message(DepsWriteFailed))];
        return 1, trace;
      }
    }
    rc, trace := ExportStage(files, fmt, output, camera, renderer, env, rootGeom, trace);
  }

  /**
   * The file a dependency file names as its target: the first pointer
   * set among stl, off, amf, dxf, svg and png; none for echo output.
   */
  method DepsTarget(files: OutputFiles, ghost fmt: Format, output: string) returns (target: Option<string>)
    requires !IsDump(fmt) && files == OnlyFile(fmt, output)
    ensures target.Some? <==> HasDepsTarget(fmt)
    ensures target.Some? ==> target.value == output
  {
    if files.stl.Some? { target := files.stl; }
    else if files.off.Some? { target := files.off; }
    else if files.amf.Some? { target := files.amf; }
    else if files.dxf.Some? { target := files.dxf; }
    else if files.svg.Some? { target := files.svg; }
    else if files.png.Some? { target := files.png; }
    else { target := None; }
  }

  /** The export calls at the end of the final branch, in the invoker's directory. */
  method ExportStage(files: OutputFiles, ghost fmt: Format, output: string, camera: Camera,
                     renderer: Renderer, env: Env, rootGeom: Option<nat>, trace0: seq<Step>)
    returns (rc: int, trace: seq<Step>)
    requires !IsDump(fmt) && files == OnlyFile(fmt, output)
    requires RequiredDimension(fmt).Some? ==> rootGeom.Some? && rootGeom == env.geometry
    ensures Outcome(rc, trace) == ExportStep(fmt, camera, renderer, env, trace0)
  {
    var cwd := Invoker;
    trace := trace0;
    if files.stl.Some? {
      var e := CheckAndExport(rootGeom.value, 3, Stl, cwd);
      trace := trace + e.steps;
      if !e.ok { return 1, trace; }
    }
    if files.off.Some? {
      var e := CheckAndExport(rootGeom.value, 3, Off, cwd);
      trace := trace + e.steps;
      if !e.ok { return 1, trace; }
    }
    if files.amf.Some? {
      var e := CheckAndExport(rootGeom.value, 3, Amf, cwd);
      trace := trace + e.steps;
      if !e.ok { return 1, trace; }
    }
    if files.dxf.Some? {
      var e := CheckAndExport(rootGeom.value, 2, Dxf, cwd);
      trace := trace + e.steps;
      if !e.ok { return 1, trace; }
    }
    if files.svg.Some? {
      var e := CheckAndExport(rootGeom.value, 2, Svg, cwd);
      trace := trace + e.steps;
      if !e.ok { return 1, trace; }
    }
    if files.png.Some? {
      if !env.outputOpens {
        trace := trace + [Step(cwd, Message(CantOpenOutput(Png)))];
      } else {
        trace := trace + [Step(cwd, OpenOutput(Png))];
        if renderer == Cgal {
          trace := trace + [Step(cwd, Write(Png, PngFromGeometry(camera)))];
        } else if renderer == ThrownTogether {
          trace := trace + [Step(cwd, Write(Png, PngThrownTogether(camera)))];
        } else {
          trace := trace + [Step(cwd, Write(Png, PngOpenCsg(camera)))];
        }
      }
    }
    return 0, trace;
  }
}

=== FILE: batch_properties.dfy ===
/**
 * Properties of the batch run (module Batch): what happens, in which
 * order, in which directory, how often, and with which exit status.
 * Most are stated for `Dispatch`, the run once the suffix has selected a
 * format; `RunDispatches` connects them to `Run`.
 */
module BatchProperties {
  import opened Wrappers
  import opened Text
  import opened CommandLine
  import opened Batch

  /** How many times the trace holds action `a`. */
  function Times(t: seq<Step>, a: Action): nat
  {
    multiset(t)[Step(Invoker, a)] + multiset(t)[Step(Document, a)]
  }

  /**
   * The directory an action must run in: files named by the invoker
   * (input, echo stream, destinations, dependency file) are opened from
   * the invoker's directory; the script is instantiated from the
   * document's, and the CSG tree and AST texts, whose file names must be
   * relative to the document, are written from there too.
   */
  function NeededDir(a: Action): Option<Dir>
  {
    match a
    case OpenEcho => Some(Invoker)
    case OpenInput(_) => Some(Invoker)
    case OpenOutput(_) => Some(Invoker)
    case WriteDeps(_, _) => Some(Invoker)
    case Instantiate => Some(Document)
    case Write(f, w) =>
      if w == GeometryExport then Some(Invoker)
      else if f == Csg || f == Ast then Some(Document)
      else None
    case _ => None
  }

  /** Whether every step of `t` has property `P`. */
  ghost predicate Every(t: seq<Step>, P: Step -> bool)
  {
    forall s :: s in t ==> P(s)
  }

  lemma EveryConcat(a: seq<Step>, b: seq<Step>, P: Step -> bool)
    ensures Every(a + b, P) <==> Every(a, P) && Every(b, P)
  {
    assert forall s :: s in a + b <==> s in a || s in b;
  }

  /**
   * The step writes no dependency file and neither opens the destination
   * for export nor writes it. Opening the echo stream, which creates the
   * destination of an echo run, is accounted for by `NoEchoStream`.
   */
  predicate Quiet(s: Step)
  {
    !s.action.WriteDeps? && !s.action.OpenOutput? && !s.action.Write?
  }

  /** The step neither opens the destination for export nor writes it (the echo stream aside). */
  predicate Unwritten(s: Step)
  {
    !s.action.OpenOutput? && !s.action.Write?
  }

  /** The step does not open the echo stream, the one that creates an echo run's destination. */
  predicate NoEchoStream(s: Step)
  {
    !s.action.OpenEcho?
  }

  /** How often the echo stream is opened: once in an echo run, never otherwise. */
  function EchoOpens(f: Format): nat
  {
    if f == Echo then 1 else 0
  }

  /** The step is not an evaluation of the geometry. */
  predicate Unevaluated(s: Step)
  {
    s.action != EvalGeometry
  }

  predicate InNeededDir(s: Step)
  {
    NeededDir(s.action).Some? ==> s.cwd == NeededDir(s.action).value
  }

  lemma TimesConcat(a: seq<Step>, b: seq<Step>, x: Action)
    ensures Times(a + b, x) == Times(a, x) + Times(b, x)
  {
    assert multiset(a + b) == multiset(a) + multiset(b);
  }

  lemma TimesUnevaluated(t: seq<Step>)
    requires Every(t, Unevaluated)
    ensures Times(t, EvalGeometry) == 0
  {
    assert !Unevaluated(Step(Invoker, EvalGeometry)) && !Unevaluated(Step(Document, EvalGeometry));
    assert Step(Invoker, EvalGeometry) !in t && Step(Document, EvalGeometry) !in t;
  }

  /** A trace opens no echo stream exactly when it counts no opening of it. */
  lemma NoEchoStreamTimes(t: seq<Step>)
    ensures Every(t, NoEchoStream) <==> Times(t, OpenEcho) == 0
  {
    if Times(t, OpenEcho) == 0 {
      assert Step(Invoker, OpenEcho) !in t && Step(Document, OpenEcho) !in t;
      forall s | s in t
        ensures NoEchoStream(s)
      {
        assert s == Step(s.cwd, s.action);
        if s.cwd == Invoker {
          assert s.action != OpenEcho;
        } else {
          assert s.action != OpenEcho;
        }
      }
    } else if multiset(t)[Step(Invoker, OpenEcho)] > 0 {
      assert Step(Invoker, OpenEcho) in t;
    } else {
      assert Step(Document, OpenEcho) in t;
    }
  }

  /** The steps of a run whose script was loaded, parsed and instantiated. */
  function Built(f: Format, input: string, commands: string, env: Env): seq<Step>
  {
    Loading(f, input) + Building(ScriptText(env.contents, commands), env.rootTag)
  }

  /**
   * Loading writes no dependency file, never opens the destination for
   * export, evaluates nothing and keeps to its directory; an echo run
   * opens its echo stream there, once, and no other run does.
   */
  lemma LoadingSteps(f: Format, input: string)
    ensures var t := Loading(f, input);
      && Every(t, Quiet) && Every(t, InNeededDir) && Every(t, Unevaluated)
      && (Every(t, NoEchoStream) <==> f != Echo)
  {
    if f == Echo {
      var s := Loading(f, input)[0];
      assert s in Loading(f, input) && !NoEchoStream(s);
    }
  }

  /** Loading opens the echo stream once in an echo run and never otherwise. */
  lemma LoadingEchoTimes(f: Format, input: string)
    ensures Times(Loading(f, input), OpenEcho) == EchoOpens(f)
  {
    var t := Loading(f, input);
    var w := [Step(Invoker, RegisterDep(input)), Step(Invoker, OpenInput(input))];
    assert Times(w, OpenEcho) == 0;
    if f == Echo {
      assert t == [Step(Invoker, OpenEcho)] + w;
      TimesConcat([Step(Invoker, OpenEcho)], w, OpenEcho);
    } else {
      assert t == w;
    }
  }

  lemma BuildingSteps(text: string, rootTag: Option<nat>)
    ensures var t := Building(text, rootTag);
      Every(t, Quiet) && Every(t, InNeededDir) && Every(t, Unevaluated) && Every(t, NoEchoStream)
  {
  }

  /**
   * Loading and building write no dependency file, never open the
   * destination for export, evaluate nothing and keep to their
   * directories; only an echo run has opened its echo stream, once.
   */
  lemma BuiltSteps(f: Format, input: string, commands: string, env: Env)
    ensures var built := Built(f, input, commands, env);
      && Every(built, Quiet) && Every(built, InNeededDir) && Every(built, Unevaluated)
      && (Every(built, NoEchoStream) <==> f != Echo)
  {
    var text := ScriptText(env.contents, commands);
    var b := Building(text, env.rootTag);
    LoadingSteps(f, input);
    BuildingSteps(text, env.rootTag);
    EveryConcat(Loading(f, input), b, Quiet);
    EveryConcat(Loading(f, input), b, InNeededDir);
    EveryConcat(Loading(f, input), b, Unevaluated);
    EveryConcat(Loading(f, input), b, NoEchoStream);
  }

  /** With a known suffix, the run is the dispatch on that suffix's format. */
  lemma RunDispatches(deps: Option<string>, input: string, output: string, camera: Camera,
                      renderer: Renderer, commands: string, env: Env, f: Format)
    requires OutputFormat(output) == Some(f)
    ensures Run(deps, input, output, camera, renderer, commands, env)
         == Dispatch(f, deps, input, output, camera, renderer, commands, env)
  {
  }

  /**
   * A run that stops before the script is built writes no dependency
   * file, never opens the destination for export and evaluates nothing;
   * an echo run has still opened its echo stream, which creates the
   * destination.
   */
  lemma EarlyExitSteps(f: Format, deps: Option<string>, input: string, output: string, camera: Camera,
                       renderer: Renderer, commands: string, env: Env)
    requires !(env.inputReadable && env.parses)
    ensures var t := Dispatch(f, deps, input, output, camera, renderer, commands, env).trace;
      && Every(t, Quiet) && Every(t, InNeededDir) && Every(t, Unevaluated)
      && (Every(t, NoEchoStream) <==> f != Echo)
  {
    var loaded := Loading(f, input);
    LoadingSteps(f, input);
    var stop: seq<Step>;
    if !env.inputReadable {
      stop := [Step(Invoker, Message(CantOpenInput))];
    } else {
      stop := [Step(Invoker, Parse(ScriptText(env.contents, commands))), Step(Invoker, Message(CantParse))];
    }
    assert Dispatch(f, deps, input, output, camera, renderer, commands, env).trace == loaded + stop;
    assert Every(stop, Quiet) && Every(stop, InNeededDir) && Every(stop, Unevaluated);
    assert Every(stop, NoEchoStream);
    EveryConcat(loaded, stop, NoEchoStream);
    EveryConcat(loaded, stop, Quiet);
    EveryConcat(loaded, stop, InNeededDir);
    EveryConcat(loaded, stop, Unevaluated);
  }

  lemma Associative(a: seq<Step>, b: seq<Step>, c: seq<Step>)
    ensures a + b + c == a + (b + c)
  {
  }

  lemma PrefixKept(a: seq<Step>, b: seq<Step>)
    requires b != []
    ensures |a + b| > |a| && (a + b)[..|a|] == a
  {
  }

  lemma AbortKeeps(t: seq<Step>, cwd: Dir, d: Diagnostic, P: Step -> bool)
    requires Every(t, P) && P(Step(cwd, Message(d)))
    ensures Every(Abort(t, cwd, d).trace, P)
  {
    EveryConcat(t, [Step(cwd, Message(d))], P);
  }

  lemma QuietUnwritten(t: seq<Step>)
    requires Every(t, Quiet)
    ensures Every(t, Unwritten)
  {
  }

  /** The trace ends on a diagnostic that fails the run. */
  predicate EndsFatal(t: seq<Step>)
  {
    t != [] && t[|t| - 1].action.Message? && Fatal(t[|t| - 1].action.diagnostic)
  }

  /**
   * The status is 0 or 1; it is 1 exactly when the trace ends on a fatal
   * diagnostic, and then nothing was opened for export or written. The
   * echo stream is counted apart, by `EchoOpens`.
   */
  ghost predicate Settled(o: Outcome)
  {
    && (o.code == 0 || o.code == 1)
    && (o.code == 1 <==> EndsFatal(o.trace))
    && (o.code == 1 ==> Every(o.trace, Unwritten))
  }

  /** An abort after steps that opened nothing for export is settled, and opens no echo stream of its own. */
  lemma AbortSettled(t: seq<Step>, cwd: Dir, d: Diagnostic)
    requires Fatal(d) && Every(t, Unwritten)
    ensures Settled(Abort(t, cwd, d))
    ensures Times(Abort(t, cwd, d).trace, OpenEcho) == Times(t, OpenEcho)
  {
    AbortKeeps(t, cwd, d, Unwritten);
    assert Times([Step(cwd, Message(d))], OpenEcho) == 0;
    TimesConcat(t, [Step(cwd, Message(d))], OpenEcho);
  }

  lemma SettledAfter(w: seq<Step>, o: Outcome)
    requires Settled(o) && Every(w, Unwritten) && (o.trace == [] ==> !EndsFatal(w))
    ensures Settled(Outcome(o.code, w + o.trace))
  {
    EveryConcat(w, o.trace, Unwritten);
    if o.trace == [] {
      assert w + o.trace == w;
    } else {
      assert (w + o.trace)[|w + o.trace| - 1] == o.trace[|o.trace| - 1];
    }
  }

  /** The export only appends to the trace it is given. */
  lemma ExportStepExtends(f: Format, camera: Camera, renderer: Renderer, env: Env, t: seq<Step>)
    requires !IsDump(f) && (RequiredDimension(f).Some? ==> env.geometry.Some?)
    ensures var o := ExportStep(f, camera, renderer, env, t);
      var p := ExportStep(f, camera, renderer, env, []);
      o.code == p.code && o.trace == t + p.trace
  {
    assert [] + ExportStep(f, camera, renderer, env, []).trace == ExportStep(f, camera, renderer, env, []).trace;
  }

  /** So does the dependency stage. */
  lemma DepsStageExtends(f: Format, deps: Option<string>, output: string, camera: Camera,
                         renderer: Renderer, env: Env, t: seq<Step>)
    requires !IsDump(f) && (RequiredDimension(f).Some? ==> env.geometry.Some?)
    ensures var o := DepsStage(f, deps, output, camera, renderer, env, t);
      var p := DepsStage(f, deps, output, camera, renderer, env, []);
      o.code == p.code && o.trace == t + p.trace
  {
    if deps.None? {
      ExportStepExtends(f, camera, renderer, env, t);
    } else if HasDepsTarget(f) {
      var w := [Step(Invoker, WriteDeps(deps.value, output))];
      assert [] + w == w;
      if env.depsWritten {
        ExportStepExtends(f, camera, renderer, env, t + w);
        ExportStepExtends(f, camera, renderer, env, w);
        Associative(t, w, ExportStep(f, camera, renderer, env, []).trace);
      }
    }
  }

  /** The final branch only appends to the trace it is given. */
  lemma RenderStageExtends(f: Format, deps: Option<string>, output: string, camera: Camera,
                           renderer: Renderer, env: Env, t: seq<Step>)
    requires !IsDump(f)
    ensures var o := RenderStage(f, deps, output, camera, renderer, env, t);
      var p := RenderStage(f, deps, output, camera, renderer, env, []);
      o.code == p.code && o.trace == t + p.trace
  {
    var evaluates := EvaluatesGeometry(f, renderer);
    var e: seq<Step> := if evaluates then [Step(Document, EvalGeometry)] else [];
    var c := [Step(Document, Chdir(Invoker))];
    Associative(t, e, c);
    assert [] + e == e;
    if env.cgal && !(evaluates && env.geometry.None?) {
      DepsStageExtends(f, deps, output, camera, renderer, env, t + (e + c));
      DepsStageExtends(f, deps, output, camera, renderer, env, e + c);
      Associative(t, e + c, DepsStage(f, deps, output, camera, renderer, env, []).trace);
    }
  }

  /** The dependency stage: a refused or failed dependency file, or the written one before the export. */
  lemma DepsStageShape(f: Format, deps: Option<string>, output: string, camera: Camera,
                       renderer: Renderer, env: Env)
    requires !IsDump(f) && (RequiredDimension(f).Some? ==> env.geometry.Some?)
    ensures var p := DepsStage(f, deps, output, camera, renderer, env, []);
      var x := ExportStep(f, camera, renderer, env, []);
      if deps.None? then p == x
      else if !HasDepsTarget(f) then p == Abort([], Invoker, NoDepsTarget)
      else
        var w := [Step(Invoker, WriteDeps(deps.value, output))];
        if !env.depsWritten then p == Abort(w, Invoker, DepsWriteFailed)
        else p == Outcome(x.code, w + x.trace)
  {
    if deps.Some? && HasDepsTarget(f) {
      var w := [Step(Invoker, WriteDeps(deps.value, output))];
      assert [] + w == w;
      if env.depsWritten {
        ExportStepExtends(f, camera, renderer, env, w);
      }
    }
  }

  /** The final branch: a missing geometry support or top-level object, or the return to the invoker's directory. */
  lemma RenderStageShape(f: Format, deps: Option<string>, output: string, camera: Camera,
                         renderer: Renderer, env: Env)
    requires !IsDump(f)
    ensures var p := RenderStage(f, deps, output, camera, renderer, env, []);
      var evaluates := EvaluatesGeometry(f, renderer);
      var e: seq<Step> := if evaluates then [Step(Document, EvalGeometry)] else [];
      if !env.cgal then p == Abort([], Document, NoCgal)
      else if evaluates && env.geometry.None? then p == Abort(e, Document, NoTopLevelObject)
      else
        var d := DepsStage(f, deps, output, camera, renderer, env, []);
        p == Outcome(d.code, e + [Step(Document, Chdir(Invoker))] + d.trace)
  {
    var evaluates := EvaluatesGeometry(f, renderer);
    var e: seq<Step> := if evaluates then [Step(Document, EvalGeometry)] else [];
    assert [] + e == e;
    if env.cgal && !(evaluates && env.geometry.None?) {
      DepsStageExtends(f, deps, output, camera, renderer, env, e + [Step(Document, Chdir(Invoker))]);
    }
  }

  /** The steps of the final branch before the return to the invoker's directory, and that return. */
  lemma ChdirBack(evaluates: bool)
    ensures var e: seq<Step> := if evaluates then [Step(Document, EvalGeometry)] else [];
      var c := e + [Step(Document, Chdir(Invoker))];
      && Every(c, Unwritten) && Every(c, InNeededDir) && !EndsFatal(c)
      && Every(c[|e|..], Unevaluated) && (!evaluates ==> Every(c, Unevaluated))
  {
  }

  /**
   * After the return to the invoker's directory the export and the
   * dependency stage never evaluate, and open or write every file from
   * the invoker's directory.
   */
  lemma ExportStepSteps(f: Format, camera: Camera, renderer: Renderer, env: Env)
    requires !IsDump(f) && (RequiredDimension(f).Some? ==> env.geometry.Some?)
    ensures var p := ExportStep(f, camera, renderer, env, []);
      Every(p.trace, Unevaluated) && Every(p.trace, InNeededDir) && Every(p.trace, NoEchoStream)
  {
    var t := ExportStep(f, camera, renderer, env, []).trace;
    if RequiredDimension(f).Some? {
      var nd := RequiredDimension(f).value;
      assert t == CheckAndExport(env.geometry.value, nd, f, Invoker).steps;
      CheckAndExportSteps(env.geometry.value, nd, f);
    } else if f == Png {
      assert t == PngStage(renderer, camera, env);
      PngStageSteps(renderer, camera, env);
    }
  }

  lemma CheckAndExportSteps(dim: nat, required: nat, f: Format)
    ensures var t := CheckAndExport(dim, required, f, Invoker).steps;
      Every(t, Unevaluated) && Every(t, InNeededDir) && Every(t, NoEchoStream)
  {
  }

  lemma PngStageSteps(renderer: Renderer, camera: Camera, env: Env)
    ensures var t := PngStage(renderer, camera, env);
      Every(t, Unevaluated) && Every(t, InNeededDir) && Every(t, NoEchoStream)
  {
  }

  lemma DepsStageSteps(f: Format, deps: Option<string>, output: string, camera: Camera,
                       renderer: Renderer, env: Env)
    requires !IsDump(f) && (RequiredDimension(f).Some? ==> env.geometry.Some?)
    ensures var p := DepsStage(f, deps, output, camera, renderer, env, []);
      Every(p.trace, Unevaluated) && Every(p.trace, InNeededDir)
  {
    ExportStepSteps(f, camera, renderer, env);
    DepsStageKeeps(f, deps, output, camera, renderer, env, Unevaluated);
    DepsStageKeeps(f, deps, output, camera, renderer, env, InNeededDir);
  }

  /** The dependency stage never opens the echo stream. */
  lemma DepsStageNoEcho(f: Format, deps: Option<string>, output: string, camera: Camera,
                        renderer: Renderer, env: Env)
    requires !IsDump(f) && (RequiredDimension(f).Some? ==> env.geometry.Some?)
    ensures Every(DepsStage(f, deps, output, camera, renderer, env, []).trace, NoEchoStream)
  {
    ExportStepSteps(f, camera, renderer, env);
    DepsStageKeeps(f, deps, output, camera, renderer, env, NoEchoStream);
  }

  /** A property of every step of the export, of the dependency write and of the diagnostics holds of the whole stage. */
  lemma DepsStageKeeps(f: Format, deps: Option<string>, output: string, camera: Camera,
                       renderer: Renderer, env: Env, P: Step -> bool)
    requires !IsDump(f) && (RequiredDimension(f).Some? ==> env.geometry.Some?)
    requires Every(ExportStep(f, camera, renderer, env, []).trace, P)
    requires deps.Some? ==> P(Step(Invoker, WriteDeps(deps.value, output)))
    requires P(Step(Invoker, Message(NoDepsTarget))) && P(Step(Invoker, Message(DepsWriteFailed)))
    ensures Every(DepsStage(f, deps, output, camera, renderer, env, []).trace, P)
  {
    DepsStageShape(f, deps, output, camera, renderer, env);
    if deps.Some? {
      var w := [Step(Invoker, WriteDeps(deps.value, output))];
      if !HasDepsTarget(f) {
        AbortKeeps([], Invoker, NoDepsTarget, P);
      } else if !env.depsWritten {
        AbortKeeps(w, Invoker, DepsWriteFailed, P);
      } else {
        EveryConcat(w, ExportStep(f, camera, renderer, env, []).trace, P);
      }
    }
  }

  /** The export is settled. */
  lemma ExportStepStatus(f: Format, camera: Camera, renderer: Renderer, env: Env)
    requires !IsDump(f) && (RequiredDimension(f).Some? ==> env.geometry.Some?)
    ensures Settled(ExportStep(f, camera, renderer, env, []))
  {
  }

  /** So is the dependency stage. */
  lemma DepsStageStatus(f: Format, deps: Option<string>, output: string, camera: Camera,
                        renderer: Renderer, env: Env)
    requires !IsDump(f) && (RequiredDimension(f).Some? ==> env.geometry.Some?)
    ensures Settled(DepsStage(f, deps, output, camera, renderer, env, []))
  {
    DepsStageShape(f, deps, output, camera, renderer, env);
    ExportStepStatus(f, camera, renderer, env);
    if deps.Some? {
      var w := [Step(Invoker, WriteDeps(deps.value, output))];
      if !HasDepsTarget(f) {
        AbortSettled([], Invoker, NoDepsTarget);
      } else if !env.depsWritten {
        AbortSettled(w, Invoker, DepsWriteFailed);
      } else {
        SettledAfter(w, ExportStep(f, camera, renderer, env, []));
      }
    }
  }

  /**
   * Once the script is built, the run is the loading and building steps
   * followed by one of the two branches.
   */
  lemma DispatchAfterBuilding(f: Format, deps: Option<string>, input: string, output: string, camera: Camera,
                              renderer: Renderer, commands: string, env: Env)
    requires env.inputReadable && env.parses
    ensures var built := Built(f, input, commands, env);
      var o := Dispatch(f, deps, input, output, camera, renderer, commands, env);
      && (IsDump(f) ==> o == Outcome(0, built + DumpStage(f, env)))
      && (!IsDump(f) ==> o.code == RenderStage(f, deps, output, camera, renderer, env, []).code
                         && o.trace == built + RenderStage(f, deps, output, camera, renderer, env, []).trace)
  {
    if !IsDump(f) {
      RenderStageExtends(f, deps, output, camera, renderer, env, Built(f, input, commands, env));
    }
  }

  /** Every run with a known suffix starts with the loading steps and goes on past them. */
  lemma DispatchStartsWithLoading(f: Format, deps: Option<string>, input: string, output: string, camera: Camera,
                                  renderer: Renderer, commands: string, env: Env)
    ensures var t := Dispatch(f, deps, input, output, camera, renderer, commands, env).trace;
      |t| > |Loading(f, input)| && t[..|Loading(f, input)|] == Loading(f, input)
  {
    var t := Dispatch(f, deps, input, output, camera, renderer, commands, env).trace;
    var loaded := Loading(f, input);
    var text := ScriptText(env.contents, commands);
    if !env.inputReadable {
      PrefixKept(loaded, [Step(Invoker, Message(CantOpenInput))]);
    } else if !env.parses {
      PrefixKept(loaded, [Step(Invoker, Parse(text)), Step(Invoker, Message(CantParse))]);
    } else {
      DispatchAfterBuilding(f, deps, input, output, camera, renderer, commands, env);
      var building := Building(text, env.rootTag);
      var rest := if IsDump(f) then DumpStage(f, env) else RenderStage(f, deps, output, camera, renderer, env, []).trace;
      assert t == loaded + building + rest;
      Associative(loaded, building, rest);
      PrefixKept(loaded, building + rest);
    }
  }


  /**
   * The suffix is matched without regard to case: a path ending in any
   * upper/lower-case spelling of a format's suffix selects that format,
   * whatever comes before it.
   */
  lemma OutputFormatIgnoresCase(stem: string, ext: string, f: Format)
    requires ToLower(ext) == SuffixOf(f)
    ensures OutputFormat(stem + ext) == Some(f)
  {
    LowerCharKeepsPunctuation(ext[0]);
    forall i | 1 <= i < |ext|
      ensures ext[i] != '.'
    {
      LowerCharKeepsPunctuation(ext[i]);
    }
    forall i | 0 <= i < |ext|
      ensures ext[i] != '/'
    {
      LowerCharKeepsPunctuation(ext[i]);
    }
    ExtensionOfNamed(stem, ext);
    FormatOfSuffixRoundTrip(f);
  }

  /** The ten suffixes are written in lower case already. */
  lemma SuffixesAreLowerCase(f: Format)
    ensures ToLower(SuffixOf(f)) == SuffixOf(f)
  {
    var s := SuffixOf(f);
    forall i | 0 <= i < |s|
      ensures ToLower(s)[i] == s[i]
    {
      assert !('A' <= s[i] <= 'Z');
    }
  }

  /** A path that ends in a format's own suffix selects that format. */
  lemma SuffixSelects(stem: string, f: Format)
    ensures OutputFormat(stem + SuffixOf(f)) == Some(f)
  {
    SuffixesAreLowerCase(f);
    OutputFormatIgnoresCase(stem, SuffixOf(f), f);
  }

  /** A path selects a format exactly when its lower-cased extension is one of the ten suffixes. */
  lemma UnknownSuffixRule(path: string)
    ensures OutputFormat(path).None? <==> forall f :: SuffixOf(f) != ToLower(Extension(path))
    ensures OutputFormat(path).Some? ==> ToLower(Extension(path)) == SuffixOf(OutputFormat(path).value)
  {
    if OutputFormat(path).Some? {
      FormatOfSuffixRoundTrip(OutputFormat(path).value);
    }
  }

  /** A path that selects a format ends in a spelling of that format's suffix. */
  lemma SelectedSuffixEndsPath(path: string, f: Format)
    requires OutputFormat(path) == Some(f)
    ensures |path| >= |SuffixOf(f)|
    ensures ToLower(path[|path| - |SuffixOf(f)|..]) == SuffixOf(f)
  {
    var ext := Extension(path);
    UnknownSuffixRule(path);
    assert ToLower(ext) == SuffixOf(f);
    ExtensionIsTail(path);
  }

  /**
   * Both directions of suffix selection: a path selects a format exactly
   * when it ends in some upper/lower-case spelling of that format's suffix.
   */
  lemma SuffixSelectsExactly(path: string, f: Format)
    ensures OutputFormat(path) == Some(f) <==>
            |path| >= |SuffixOf(f)| && ToLower(path[|path| - |SuffixOf(f)|..]) == SuffixOf(f)
  {
    var n := |SuffixOf(f)|;
    if OutputFormat(path) == Some(f) {
      SelectedSuffixEndsPath(path, f);
    }
    if |path| >= n && ToLower(path[|path| - n..]) == SuffixOf(f) {
      var stem, ext := path[..|path| - n], path[|path| - n..];
      assert stem + ext == path;
      OutputFormatIgnoresCase(stem, ext, f);
    }
  }

  /** An unknown suffix ends the run before anything is opened, registered or parsed. */
  lemma UnknownSuffixTouchesNothing(deps: Option<string>, input: string, output: string, camera: Camera,
                                    renderer: Renderer, commands: string, env: Env)
    requires OutputFormat(output).None?
    ensures Run(deps, input, output, camera, renderer, commands, env) == Outcome(1, [Step(Invoker, Message(UnknownSuffix))])
  {
  }

  /**
   * With a known suffix the input is registered as a dependency right
   * before it is opened; only the echo stream comes earlier.
   */
  lemma InputRegisteredBeforeOpened(f: Format, deps: Option<string>, input: string, output: string, camera: Camera,
                                    renderer: Renderer, commands: string, env: Env)
    ensures var t := Dispatch(f, deps, input, output, camera, renderer, commands, env).trace;
      var k := if f == Echo then 1 else 0;
      && |t| > k + 1
      && t[k] == Step(Invoker, RegisterDep(input))
      && t[k + 1] == Step(Invoker, OpenInput(input))
      && (f == Echo ==> t[0] == Step(Invoker, OpenEcho))
  {
    DispatchStartsWithLoading(f, deps, input, output, camera, renderer, commands, env);
    LoadingOrder(f, input, Dispatch(f, deps, input, output, camera, renderer, commands, env).trace);
  }

  /** The order of the loading steps at the head of a trace. */
  lemma LoadingOrder(f: Format, input: string, t: seq<Step>)
    requires |t| > |Loading(f, input)| && t[..|Loading(f, input)|] == Loading(f, input)
    ensures var k := if f == Echo then 1 else 0;
      && |t| > k + 1
      && t[k] == Step(Invoker, RegisterDep(input))
      && t[k + 1] == Step(Invoker, OpenInput(input))
      && (f == Echo ==> t[0] == Step(Invoker, OpenEcho))
  {
    var loaded := Loading(f, input);
    assert forall i :: 0 <= i < |loaded| ==> t[i] == loaded[i] by {
      forall i | 0 <= i < |loaded| ensures t[i] == loaded[i] {
        assert t[..|loaded|][i] == t[i];
      }
    }
  }

  /**
   * An input that cannot be opened ends the run with status 1 right after
   * the attempt to open it: nothing is parsed.
   */
  lemma UnreadableInputNeverParsed(f: Format, deps: Option<string>, input: string, output: string, camera: Camera,
                                   renderer: Renderer, commands: string, env: Env)
    requires !env.inputReadable
    ensures var o := Dispatch(f, deps, input, output, camera, renderer, commands, env);
      var n := |Loading(f, input)|;
      && o.code == 1
      && |o.trace| == n + 1
      && o.trace[n - 1] == Step(Invoker, OpenInput(input))
      && o.trace[n] == Step(Invoker, Message(CantOpenInput))
  {
  }

  /**
   * Right after the input is opened the parser sees the file, a newline
   * and the command-line assignments. A failed parse ends the run with
   * status 1 at once; a successful one is followed by the module
   * dependencies, the move to the document directory, the instantiation
   * there, and the choice of the tagged node as root, else the top-level
   * group.
   */
  lemma ParseThenInstantiate(f: Format, deps: Option<string>, input: string, output: string, camera: Camera,
                             renderer: Renderer, commands: string, env: Env)
    requires env.inputReadable
    ensures var o := Dispatch(f, deps, input, output, camera, renderer, commands, env);
      var n := |Loading(f, input)|;
      && |o.trace| > n + 1
      && o.trace[n] == Step(Invoker, Parse(env.contents + "\n" + commands))
      && (!env.parses ==> o.code == 1 && |o.trace| == n + 2
                          && o.trace[n + 1] == Step(Invoker, Message(CantParse)))
      && (env.parses ==>
            && |o.trace| > n + 4
            && o.trace[n + 1] == Step(Invoker, ModuleDependencies)
            && o.trace[n + 2] == Step(Invoker, Chdir(Document))
            && o.trace[n + 3] == Step(Document, Instantiate)
            && o.trace[n + 4] == Step(Document, SetRoot(if env.rootTag.Some? then ExplicitRoot(env.rootTag.value) else TopLevelGroup)))
  {
    if env.parses {
      var built := Built(f, input, commands, env);
      var o := Dispatch(f, deps, input, output, camera, renderer, commands, env);
      DispatchAfterBuilding(f, deps, input, output, camera, renderer, commands, env);
      assert o.trace[..|built|] == built;
    }
  }

  /** Which format and render mode evaluate the geometry, as a table. */
  lemma GeometryEvaluationTable(r: Renderer)
    ensures !EvaluatesGeometry(Csg, r) && !EvaluatesGeometry(Ast, r) && !EvaluatesGeometry(Term, r)
    ensures EvaluatesGeometry(Echo, r) <==> r == Cgal
    ensures EvaluatesGeometry(Png, r) <==> r == Cgal
    ensures EvaluatesGeometry(Stl, r) && EvaluatesGeometry(Off, r) && EvaluatesGeometry(Amf, r)
    ensures EvaluatesGeometry(Dxf, r) && EvaluatesGeometry(Svg, r)
  {
  }

  /** Without geometry support, or for a format that does not need it, the final branch never evaluates. */
  lemma RenderStageSkipsEvaluation(f: Format, deps: Option<string>, output: string, camera: Camera,
                                   renderer: Renderer, env: Env)
    requires !IsDump(f) && !(env.cgal && EvaluatesGeometry(f, renderer))
    ensures Every(RenderStage(f, deps, output, camera, renderer, env, []).trace, Unevaluated)
  {
    RenderStageShape(f, deps, output, camera, renderer, env);
    if env.cgal {
      DepsStageSteps(f, deps, output, camera, renderer, env);
      ChdirBack(false);
      EveryConcat([] + [Step(Document, Chdir(Invoker))], DepsStage(f, deps, output, camera, renderer, env, []).trace, Unevaluated);
    } else {
      AbortKeeps([], Document, NoCgal, Unevaluated);
    }
  }

  /** Otherwise it evaluates first, and never again. */
  lemma RenderStageEvaluatesFirst(f: Format, deps: Option<string>, output: string, camera: Camera,
                                  renderer: Renderer, env: Env)
    requires !IsDump(f) && env.cgal && EvaluatesGeometry(f, renderer)
    ensures var t := RenderStage(f, deps, output, camera, renderer, env, []).trace;
      t != [] && t[0] == Step(Document, EvalGeometry) && Every(t[1..], Unevaluated)
  {
    RenderStageShape(f, deps, output, camera, renderer, env);
    var e := [Step(Document, EvalGeometry)];
    if env.geometry.None? {
      HeadAndRest(e[0], [Step(Document, Message(NoTopLevelObject))]);
    } else {
      DepsStageSteps(f, deps, output, camera, renderer, env);
      var c := [Step(Document, Chdir(Invoker))];
      var d := DepsStage(f, deps, output, camera, renderer, env, []).trace;
      Associative(e, c, d);
      HeadAndRest(e[0], c + d);
      EveryConcat(c, d, Unevaluated);
    }
  }

  lemma HeadAndRest(s: Step, t: seq<Step>)
    ensures ([s] + t)[0] == s && ([s] + t)[1..] == t
  {
  }

  /** The final branch evaluates the geometry once when the build supports it and the format needs it. */
  lemma RenderStageEvaluations(f: Format, deps: Option<string>, output: string, camera: Camera,
                               renderer: Renderer, env: Env)
    requires !IsDump(f)
    ensures Times(RenderStage(f, deps, output, camera, renderer, env, []).trace, EvalGeometry)
         == if env.cgal && EvaluatesGeometry(f, renderer) then 1 else 0
  {
    var t := RenderStage(f, deps, output, camera, renderer, env, []).trace;
    if env.cgal && EvaluatesGeometry(f, renderer) {
      RenderStageEvaluatesFirst(f, deps, output, camera, renderer, env);
      assert t == [t[0]] + t[1..];
      TimesConcat([t[0]], t[1..], EvalGeometry);
      TimesUnevaluated(t[1..]);
    } else {
      RenderStageSkipsEvaluation(f, deps, output, camera, renderer, env);
      TimesUnevaluated(t);
    }
  }

  lemma DumpStageSteps(f: Format, env: Env)
    requires IsDump(f)
    ensures Every(DumpStage(f, env), InNeededDir) && Every(DumpStage(f, env), Unevaluated)
    ensures Every(DumpStage(f, env), NoEchoStream)
  {
  }

  /** The branch taken after building evaluates once when the build supports it and `f` needs it. */
  lemma StageEvaluations(f: Format, deps: Option<string>, output: string, camera: Camera,
                         renderer: Renderer, env: Env)
    ensures var rest := if IsDump(f) then DumpStage(f, env) else RenderStage(f, deps, output, camera, renderer, env, []).trace;
      Times(rest, EvalGeometry) == if env.cgal && EvaluatesGeometry(f, renderer) then 1 else 0
  {
    if IsDump(f) {
      DumpStageSteps(f, env);
      TimesUnevaluated(DumpStage(f, env));
      GeometryEvaluationTable(renderer);
    } else {
      RenderStageEvaluations(f, deps, output, camera, renderer, env);
    }
  }

  /**
   * After a suffix selected format `f`, the geometry is evaluated once
   * when the script was built, the build has geometry support and `f`
   * needs it, and never otherwise.
   */
  lemma DispatchEvaluations(f: Format, deps: Option<string>, input: string, output: string, camera: Camera,
                            renderer: Renderer, commands: string, env: Env)
    ensures Times(Dispatch(f, deps, input, output, camera, renderer, commands, env).trace, EvalGeometry)
         == if env.inputReadable && env.parses && env.cgal && EvaluatesGeometry(f, renderer) then 1 else 0
  {
    var t := Dispatch(f, deps, input, output, camera, renderer, commands, env).trace;
    if env.inputReadable && env.parses {
      var built := Built(f, input, commands, env);
      var rest := if IsDump(f) then DumpStage(f, env) else RenderStage(f, deps, output, camera, renderer, env, []).trace;
      DispatchAfterBuilding(f, deps, input, output, camera, renderer, commands, env);
      assert t == built + rest;
      BuiltSteps(f, input, commands, env);
      TimesUnevaluated(built);
      TimesConcat(built, rest, EvalGeometry);
      StageEvaluations(f, deps, output, camera, renderer, env);
    } else {
      EarlyExitSteps(f, deps, input, output, camera, renderer, commands, env);
      TimesUnevaluated(t);
    }
  }

  /**
   * The geometry is evaluated at most once, and exactly when the suffix
   * is known, the script was built, the build has geometry support and
   * the format needs it.
   */
  lemma GeometryEvaluatedAtMostOnce(deps: Option<string>, input: string, output: string, camera: Camera,
                                    renderer: Renderer, commands: string, env: Env)
    ensures var t := Run(deps, input, output, camera, renderer, commands, env).trace;
      && Times(t, EvalGeometry) <= 1
      && (Times(t, EvalGeometry) == 1 <==>
            && OutputFormat(output).Some? && env.inputReadable && env.parses && env.cgal
            && EvaluatesGeometry(OutputFormat(output).value, renderer))
  {
    if OutputFormat(output).Some? {
      var f := OutputFormat(output).value;
      RunDispatches(deps, input, output, camera, renderer, commands, env, f);
      DispatchEvaluations(f, deps, input, output, camera, renderer, commands, env);
    } else {
      var t := [Step(Invoker, Message(UnknownSuffix))];
      assert Every(t, Unevaluated);
      TimesUnevaluated(t);
    }
  }

  /**
   * An evaluation that yields no geometry ends the run with status 1
   * before the dependency file is written or the destination opened for
   * export; only an echo run has opened its echo stream.
   */
  lemma EmptyGeometryAborts(f: Format, deps: Option<string>, input: string, output: string, camera: Camera,
                            renderer: Renderer, commands: string, env: Env)
    requires env.inputReadable && env.parses && env.cgal && env.geometry.None?
    requires EvaluatesGeometry(f, renderer)
    ensures var o := Dispatch(f, deps, input, output, camera, renderer, commands, env);
      && o.code == 1
      && o.trace[|o.trace| - 1] == Step(Document, Message(NoTopLevelObject))
      && Every(o.trace, Quiet)
      && (Every(o.trace, NoEchoStream) <==> f != Echo)
  {
    var tail := [Step(Document, EvalGeometry), Step(Document, Message(NoTopLevelObject))];
    EmptyGeometryTrace(f, deps, input, output, camera, renderer, commands, env);
    assert Every(tail, Quiet) && Every(tail, NoEchoStream);
    BuiltThenQuiet(f, input, commands, env, tail);
  }

  lemma EmptyGeometryTrace(f: Format, deps: Option<string>, input: string, output: string, camera: Camera,
                           renderer: Renderer, commands: string, env: Env)
    requires env.inputReadable && env.parses && env.cgal && env.geometry.None?
    requires EvaluatesGeometry(f, renderer)
    ensures Dispatch(f, deps, input, output, camera, renderer, commands, env)
         == Outcome(1, Built(f, input, commands, env)
                       + [Step(Document, EvalGeometry), Step(Document, Message(NoTopLevelObject))])
  {
  }

  /** Steps that touch nothing, after loading and building, leave the run as quiet as loading and building. */
  lemma BuiltThenQuiet(f: Format, input: string, commands: string, env: Env, tail: seq<Step>)
    requires Every(tail, Quiet) && Every(tail, NoEchoStream)
    ensures var t := Built(f, input, commands, env) + tail;
      Every(t, Quiet) && (Every(t, NoEchoStream) <==> f != Echo)
  {
    var built := Built(f, input, commands, env);
    BuiltSteps(f, input, commands, env);
    EveryConcat(built, tail, Quiet);
    EveryConcat(built, tail, NoEchoStream);
  }

  /** The final branch of a geometry format, once the dependency file (if any) is written. */
  lemma RenderStageDimension(f: Format, deps: Option<string>, output: string, camera: Camera,
                             renderer: Renderer, env: Env, dim: nat)
    requires RequiredDimension(f).Some? && env.cgal && env.geometry == Some(dim)
    requires deps.Some? ==> env.depsWritten
    ensures var nd := RequiredDimension(f).value;
      var p := RenderStage(f, deps, output, camera, renderer, env, []);
      var last := p.trace[|p.trace| - 1];
      && |p.trace| >= 2
      && (p.code == 0 <==> dim == nd)
      && (dim == nd ==> last == Step(Invoker, Write(f, GeometryExport)))
      && (dim != nd ==> p.code == 1 && last == Step(Invoker, Message(NotDimension(nd))) && Every(p.trace, Unwritten))
      && (deps.Some? ==> p.trace[|p.trace| - 2] == Step(Invoker, WriteDeps(deps.value, output)))
  {
  }

  /**
   * A geometry format is exported only when the geometry has the required
   * dimension (3 for STL, OFF, AMF; 2 for DXF, SVG); otherwise the run
   * ends with status 1 and the destination is never opened. A requested
   * dependency file is written just before the check, so it exists either
   * way.
   */
  lemma DimensionGate(f: Format, deps: Option<string>, input: string, output: string, camera: Camera,
                      renderer: Renderer, commands: string, env: Env, dim: nat)
    requires env.inputReadable && env.parses && env.cgal && env.geometry == Some(dim)
    requires RequiredDimension(f).Some?
    requires deps.Some? ==> env.depsWritten
    ensures var nd := RequiredDimension(f).value;
      var o := Dispatch(f, deps, input, output, camera, renderer, commands, env);
      var last := o.trace[|o.trace| - 1];
      && |o.trace| >= 2
      && (o.code == 0 <==> dim == nd)
      && (dim == nd ==> last == Step(Invoker, Write(f, GeometryExport)))
      && (dim != nd ==> o.code == 1 && last == Step(Invoker, Message(NotDimension(nd))) && Every(o.trace, Unwritten))
      && (deps.Some? ==> o.trace[|o.trace| - 2] == Step(Invoker, WriteDeps(deps.value, output)))
  {
    var built := Built(f, input, commands, env);
    var p := RenderStage(f, deps, output, camera, renderer, env, []);
    DispatchAfterBuilding(f, deps, input, output, camera, renderer, commands, env);
    RenderStageDimension(f, deps, output, camera, renderer, env, dim);
    if dim != RequiredDimension(f).value {
      BuiltThenUnwritten(f, input, commands, env, p.trace);
    }
  }

  /** Steps that open nothing for export, after loading and building, leave the whole run so. */
  lemma BuiltThenUnwritten(f: Format, input: string, commands: string, env: Env, tail: seq<Step>)
    requires Every(tail, Unwritten)
    ensures Every(Built(f, input, commands, env) + tail, Unwritten)
  {
    var built := Built(f, input, commands, env);
    BuiltSteps(f, input, commands, env);
    QuietUnwritten(built);
    EveryConcat(built, tail, Unwritten);
  }

  /** The dump branches never look at the dependency file. */
  lemma DumpsIgnoreDeps(f: Format, depsFile: string, input: string, output: string, camera: Camera,
                        renderer: Renderer, commands: string, env: Env)
    requires IsDump(f)
    ensures Dispatch(f, Some(depsFile), input, output, camera, renderer, commands, env)
         == Dispatch(f, None, input, output, camera, renderer, commands, env)
  {
  }

  /** The formats a dependency file can name a target for. */
  lemma DepsTargetTable(f: Format)
    ensures HasDepsTarget(f) <==> f in {Stl, Off, Amf, Dxf, Svg, Png}
  {
  }

  /**
   * In the final branch a requested dependency file is written for the
   * output file when the format has a target; echo output with a
   * dependency file ends with status 1, and so does a failed write.
   */
  lemma DepsFileRule(f: Format, depsFile: string, input: string, output: string, camera: Camera,
                     renderer: Renderer, commands: string, env: Env)
    requires env.inputReadable && env.parses && !IsDump(f) && env.cgal
    requires EvaluatesGeometry(f, renderer) ==> env.geometry.Some?
    ensures var o := Dispatch(f, Some(depsFile), input, output, camera, renderer, commands, env);
      var last := o.trace[|o.trace| - 1];
      && |o.trace| >= 2
      && (!HasDepsTarget(f) ==> f == Echo && o.code == 1 && last == Step(Invoker, Message(NoDepsTarget))
                                && o.trace[|o.trace| - 2] == Step(Document, Chdir(Invoker)))
      && (HasDepsTarget(f) && !env.depsWritten ==>
            o.code == 1 && last == Step(Invoker, Message(DepsWriteFailed))
            && o.trace[|o.trace| - 2] == Step(Invoker, WriteDeps(depsFile, output)))
      && (HasDepsTarget(f) ==> Step(Invoker, WriteDeps(depsFile, output)) in o.trace)
  {
    DispatchAfterBuilding(f, Some(depsFile), input, output, camera, renderer, commands, env);
  }

  /**
   * A dump whose destination opens ends with status 0 on writing the
   * dump: the CSG tree and the AST from the document directory, the CSG
   * term (or the notice that there is none) from the invoker's.
   */
  lemma DumpWritten(f: Format, deps: Option<string>, input: string, output: string, camera: Camera,
                    renderer: Renderer, commands: string, env: Env)
    requires env.inputReadable && env.parses && env.outputOpens && IsDump(f)
    ensures var o := Dispatch(f, deps, input, output, camera, renderer, commands, env);
      var last := o.trace[|o.trace| - 1];
      && o.code == 0
      && last.action == Write(f, match f
           case Csg => NodeTree
           case Ast => ModuleAst
           case _ => if env.termPresent then CsgTermDump else NoTermNotice)
      && (last.cwd == Document <==> f != Term)
  {
    DispatchAfterBuilding(f, deps, input, output, camera, renderer, commands, env);
    DumpStageEnds(f, env);
    var built := Built(f, input, commands, env);
    var dump := DumpStage(f, env);
    assert (built + dump)[|built + dump| - 1] == dump[|dump| - 1];
  }

  /**
   * A dump destination that cannot be opened is reported, nothing is
   * written, and the run still ends with status 0.
   */
  lemma UnopenableDumpStillSucceeds(f: Format, deps: Option<string>, input: string, output: string, camera: Camera,
                                    renderer: Renderer, commands: string, env: Env)
    requires env.inputReadable && env.parses && !env.outputOpens && IsDump(f)
    ensures var o := Dispatch(f, deps, input, output, camera, renderer, commands, env);
      && o.code == 0
      && o.trace[|o.trace| - 1] == Step(Invoker, Message(CantOpenOutput(f)))
      && Every(o.trace, Unwritten)
  {
    var built := Built(f, input, commands, env);
    DispatchAfterBuilding(f, deps, input, output, camera, renderer, commands, env);
    BuiltSteps(f, input, commands, env);
    assert Every(built, Unwritten);
    assert Every(DumpStage(f, env), Unwritten);
    EveryConcat(built, DumpStage(f, env), Unwritten);
  }

  lemma RenderStagePngUnopenable(deps: Option<string>, output: string, camera: Camera, renderer: Renderer, env: Env)
    requires env.cgal && (renderer == Cgal ==> env.geometry.Some?) && (deps.Some? ==> env.depsWritten)
    requires !env.outputOpens
    ensures var p := RenderStage(Png, deps, output, camera, renderer, env, []);
      && p.code == 0
      && p.trace[|p.trace| - 1] == Step(Invoker, Message(CantOpenOutput(Png)))
      && Every(p.trace, Unwritten)
  {
  }

  /**
   * A PNG destination that cannot be opened is reported, nothing is
   * written, and the run still ends with status 0.
   */
  lemma UnopenablePngStillSucceeds(deps: Option<string>, input: string, output: string, camera: Camera,
                                   renderer: Renderer, commands: string, env: Env)
    requires env.inputReadable && env.parses && !env.outputOpens
    requires env.cgal && (renderer == Cgal ==> env.geometry.Some?) && (deps.Some? ==> env.depsWritten)
    ensures var o := Dispatch(Png, deps, input, output, camera, renderer, commands, env);
      && o.code == 0
      && o.trace[|o.trace| - 1] == Step(Invoker, Message(CantOpenOutput(Png)))
      && Every(o.trace, Unwritten)
  {
    var built := Built(Png, input, commands, env);
    DispatchAfterBuilding(Png, deps, input, output, camera, renderer, commands, env);
    RenderStagePngUnopenable(deps, output, camera, renderer, env);
    BuiltSteps(Png, input, commands, env);
    assert Every(built, Unwritten);
    EveryConcat(built, RenderStage(Png, deps, output, camera, renderer, env, []).trace, Unwritten);
  }

  /**
   * A PNG is rasterised from the geometry with Cgal, from the CSG
   * products otherwise, with the camera the options built.
   */
  lemma PngRenderer(deps: Option<string>, input: string, output: string, camera: Camera,
                    renderer: Renderer, commands: string, env: Env)
    requires env.inputReadable && env.parses && env.cgal && env.outputOpens
    requires renderer == Cgal ==> env.geometry.Some?
    requires deps.Some? ==> env.depsWritten
    ensures var o := Dispatch(Png, deps, input, output, camera, renderer, commands, env);
      && o.code == 0
      && o.trace[|o.trace| - 1] == Step(Invoker, Write(Png, PngWriter(renderer, camera)))
      && o.trace[|o.trace| - 1].action.writer == match renderer
           case Cgal => PngFromGeometry(camera)
           case OpenCsg => PngOpenCsg(camera)
           case ThrownTogether => PngThrownTogether(camera)
  {
    DispatchAfterBuilding(Png, deps, input, output, camera, renderer, commands, env);
  }

  lemma RenderStageDirs(f: Format, deps: Option<string>, output: string, camera: Camera,
                        renderer: Renderer, env: Env)
    requires !IsDump(f)
    ensures Every(RenderStage(f, deps, output, camera, renderer, env, []).trace, InNeededDir)
  {
    RenderStageShape(f, deps, output, camera, renderer, env);
    var evaluates := EvaluatesGeometry(f, renderer);
    var e: seq<Step> := if evaluates then [Step(Document, EvalGeometry)] else [];
    ChdirBack(evaluates);
    if !env.cgal {
      AbortKeeps([], Document, NoCgal, InNeededDir);
    } else if evaluates && env.geometry.None? {
      AbortKeeps(e, Document, NoTopLevelObject, InNeededDir);
    } else {
      DepsStageSteps(f, deps, output, camera, renderer, env);
      var c := e + [Step(Document, Chdir(Invoker))];
      EveryConcat(c, DepsStage(f, deps, output, camera, renderer, env, []).trace, InNeededDir);
    }
  }

  /** The final branch never opens the echo stream. */
  lemma RenderStageNoEcho(f: Format, deps: Option<string>, output: string, camera: Camera,
                          renderer: Renderer, env: Env)
    requires !IsDump(f)
    ensures Every(RenderStage(f, deps, output, camera, renderer, env, []).trace, NoEchoStream)
  {
    RenderStageShape(f, deps, output, camera, renderer, env);
    var evaluates := EvaluatesGeometry(f, renderer);
    var e: seq<Step> := if evaluates then [Step(Document, EvalGeometry)] else [];
    if !env.cgal {
      AbortKeeps([], Document, NoCgal, NoEchoStream);
    } else if evaluates && env.geometry.None? {
      AbortKeeps(e, Document, NoTopLevelObject, NoEchoStream);
    } else {
      DepsStageNoEcho(f, deps, output, camera, renderer, env);
      var c := e + [Step(Document, Chdir(Invoker))];
      assert Every(c, NoEchoStream);
      EveryConcat(c, DepsStage(f, deps, output, camera, renderer, env, []).trace, NoEchoStream);
    }
  }

  /**
   * The echo stream is opened once in an echo run and never in any other:
   * whatever else happens, an echo run has created its destination.
   */
  lemma DispatchEchoOpens(f: Format, deps: Option<string>, input: string, output: string, camera: Camera,
                          renderer: Renderer, commands: string, env: Env)
    ensures Times(Dispatch(f, deps, input, output, camera, renderer, commands, env).trace, OpenEcho) == EchoOpens(f)
  {
    DispatchStartsWithLoading(f, deps, input, output, camera, renderer, commands, env);
    AfterLoadingNoEcho(f, deps, input, output, camera, renderer, commands, env);
    LoadingEchoTimes(f, input);
    EchoCount(Dispatch(f, deps, input, output, camera, renderer, commands, env).trace, Loading(f, input), f);
  }

  /** A trace that starts with `loaded` and opens no echo stream after it counts the openings of `loaded`. */
  lemma EchoCount(t: seq<Step>, loaded: seq<Step>, f: Format)
    requires |t| >= |loaded| && t[..|loaded|] == loaded
    requires Every(t[|loaded|..], NoEchoStream) && Times(loaded, OpenEcho) == EchoOpens(f)
    ensures Times(t, OpenEcho) == EchoOpens(f)
  {
    assert t == loaded + t[|loaded|..];
    NoEchoStreamTimes(t[|loaded|..]);
    TimesConcat(loaded, t[|loaded|..], OpenEcho);
  }

  /** Past the loading steps no run opens the echo stream. */
  lemma AfterLoadingNoEcho(f: Format, deps: Option<string>, input: string, output: string, camera: Camera,
                           renderer: Renderer, commands: string, env: Env)
    ensures var t := Dispatch(f, deps, input, output, camera, renderer, commands, env).trace;
      |t| >= |Loading(f, input)| && Every(t[|Loading(f, input)|..], NoEchoStream)
  {
    var t := Dispatch(f, deps, input, output, camera, renderer, commands, env).trace;
    var loaded := Loading(f, input);
    var text := ScriptText(env.contents, commands);
    var rest: seq<Step>;
    if !env.inputReadable {
      rest := [Step(Invoker, Message(CantOpenInput))];
    } else if !env.parses {
      rest := [Step(Invoker, Parse(text)), Step(Invoker, Message(CantParse))];
    } else {
      DispatchAfterBuilding(f, deps, input, output, camera, renderer, commands, env);
      var stage := if IsDump(f) then DumpStage(f, env) else RenderStage(f, deps, output, camera, renderer, env, []).trace;
      if IsDump(f) {
        DumpStageSteps(f, env);
      } else {
        RenderStageNoEcho(f, deps, output, camera, renderer, env);
      }
      BuildingSteps(text, env.rootTag);
      EveryConcat(Building(text, env.rootTag), stage, NoEchoStream);
      rest := Building(text, env.rootTag) + stage;
      Associative(loaded, Building(text, env.rootTag), stage);
    }
    assert t == loaded + rest;
    assert t[|loaded|..] == rest;
  }

  /**
   * Every step that opens or writes a file, and the instantiation, runs
   * in the directory it needs: the CSG tree and AST texts are written from
   * the document directory, the file they go to was opened from the
   * invoker's.
   */
  lemma DirectoriesRespected(deps: Option<string>, input: string, output: string, camera: Camera,
                             renderer: Renderer, commands: string, env: Env)
    ensures Every(Run(deps, input, output, camera, renderer, commands, env).trace, InNeededDir)
  {
    if OutputFormat(output).Some? {
      var f := OutputFormat(output).value;
      RunDispatches(deps, input, output, camera, renderer, commands, env, f);
      if !(env.inputReadable && env.parses) {
        EarlyExitSteps(f, deps, input, output, camera, renderer, commands, env);
      } else {
        var built := Built(f, input, commands, env);
        DispatchAfterBuilding(f, deps, input, output, camera, renderer, commands, env);
        BuiltSteps(f, input, commands, env);
        if IsDump(f) {
          DumpStageSteps(f, env);
          EveryConcat(built, DumpStage(f, env), InNeededDir);
        } else {
          RenderStageDirs(f, deps, output, camera, renderer, env);
          EveryConcat(built, RenderStage(f, deps, output, camera, renderer, env, []).trace, InNeededDir);
        }
      }
    }
  }

  /** The final branch's status is 1 exactly when it ends on a fatal diagnostic, and then it opened nothing. */
  lemma RenderStageStatus(f: Format, deps: Option<string>, output: string, camera: Camera,
                          renderer: Renderer, env: Env)
    requires !IsDump(f)
    ensures var p := RenderStage(f, deps, output, camera, renderer, env, []);
      p.trace != [] && Settled(p)
  {
    RenderStageShape(f, deps, output, camera, renderer, env);
    var evaluates := EvaluatesGeometry(f, renderer);
    var e: seq<Step> := if evaluates then [Step(Document, EvalGeometry)] else [];
    ChdirBack(evaluates);
    if !env.cgal {
      AbortSettled([], Document, NoCgal);
    } else if evaluates && env.geometry.None? {
      AbortSettled(e, Document, NoTopLevelObject);
    } else {
      DepsStageStatus(f, deps, output, camera, renderer, env);
      SettledAfter(e + [Step(Document, Chdir(Invoker))], DepsStage(f, deps, output, camera, renderer, env, []));
    }
  }

  /** A dump branch ends on its written text or on the non-fatal notice that the destination could not be opened. */
  lemma DumpStageEnds(f: Format, env: Env)
    requires IsDump(f)
    ensures DumpStage(f, env) != [] && !EndsFatal(DumpStage(f, env))
  {
  }

  /**
   * The same for the whole run once the suffix has selected a format;
   * the echo stream is opened once in an echo run and never otherwise.
   */
  lemma DispatchStatus(f: Format, deps: Option<string>, input: string, output: string, camera: Camera,
                       renderer: Renderer, commands: string, env: Env)
    ensures var o := Dispatch(f, deps, input, output, camera, renderer, commands, env);
      o.trace != [] && Settled(o)
    ensures var o := Dispatch(f, deps, input, output, camera, renderer, commands, env);
      Times(o.trace, OpenEcho) == EchoOpens(f) && (Every(o.trace, NoEchoStream) <==> f != Echo)
  {
    DispatchEchoOpens(f, deps, input, output, camera, renderer, commands, env);
    NoEchoStreamTimes(Dispatch(f, deps, input, output, camera, renderer, commands, env).trace);
    var loaded := Loading(f, input);
    var text := ScriptText(env.contents, commands);
    LoadingSteps(f, input);
    QuietUnwritten(loaded);
    if !env.inputReadable {
      AbortSettled(loaded, Invoker, CantOpenInput);
    } else if !env.parses {
      EveryConcat(loaded, [Step(Invoker, Parse(text))], Unwritten);
      AbortSettled(loaded + [Step(Invoker, Parse(text))], Invoker, CantParse);
    } else {
      var built := Built(f, input, commands, env);
      BuiltSteps(f, input, commands, env);
      QuietUnwritten(built);
      DispatchAfterBuilding(f, deps, input, output, camera, renderer, commands, env);
      if IsDump(f) {
        DumpStageEnds(f, env);
        SettledAfter(built, Outcome(0, DumpStage(f, env)));
      } else {
        RenderStageStatus(f, deps, output, camera, renderer, env);
        SettledAfter(built, RenderStage(f, deps, output, camera, renderer, env, []));
      }
    }
  }

  /**
   * The exit status is 0 or 1, and it is 1 exactly when the run ended
   * on a fatal diagnostic; a failed run never opened the destination for
   * export. Only a run whose suffix selects echo output opens the echo
   * stream, and it does so once, so a failed echo run leaves behind the
   * destination that stream created.
   */
  lemma ExitStatusMeaning(deps: Option<string>, input: string, output: string, camera: Camera,
                          renderer: Renderer, commands: string, env: Env)
    ensures var o := Run(deps, input, output, camera, renderer, commands, env);
      o.trace != [] && Settled(o)
    ensures var o := Run(deps, input, output, camera, renderer, commands, env);
      var echo := OutputFormat(output) == Some(Echo);
      Times(o.trace, OpenEcho) == (if echo then 1 else 0) && (Every(o.trace, NoEchoStream) <==> !echo)
  {
    if OutputFormat(output).Some? {
      var f := OutputFormat(output).value;
      RunDispatches(deps, input, output, camera, renderer, commands, env, f);
      DispatchStatus(f, deps, input, output, camera, renderer, commands, env);
    } else {
      AbortSettled([], Invoker, UnknownSuffix);
      NoEchoStreamTimes([Step(Invoker, Message(UnknownSuffix))]);
    }
  }
}

=== FILE: command_line.dfy ===
/**
 * The option handling of the program's entry point (src/openscad.cc,
 * main and get_camera): which renderer a run uses, which single output
 * file it writes, the script text that the -D assignments add, the
 * checks on --camera, --projection and --imgsize, and the decision between
 * the usage text, the version text, the build information, the GUI and a
 * batch run. The command-line parser itself is not modelled: an Options
 * value is what it has already stored.
 */
module CommandLine {
  import opened Wrappers
  import opened Text

  /** How a PNG export is produced. */
  datatype Renderer = Cgal | OpenCsg | ThrownTogether

  /** The parsed options; a field is None or false when the option is absent. */
  datatype Options = Options(
    unparsable: bool,           // the option parser threw (e.g. an unknown option)
    help: bool,
    version: bool,
    info: bool,
    debug: Option<string>,
    render: bool,
    preview: Option<string>,
    csgLimit: Option<nat>,
    camera: Option<string>,
    autocenter: bool,
    viewall: bool,
    imgsize: Option<string>,
    projection: Option<string>,
    outFile: Option<string>,    // -o
    stlFile: Option<string>,    // -s (deprecated)
    dxfFile: Option<string>,    // -x (deprecated)
    depsFile: Option<string>,   // -d
    makeCommand: Option<string>, // -m
    defines: seq<string>,       // every -D, in order
    inputFiles: seq<string>)    // positional arguments

  /**
   * What the options cannot decide on their own: whether the offscreen
   * OpenGL view of --info can be created, whether a display is available
   * for the GUI, and the default image size of the render settings.
   */
  datatype Host = Host(offscreenView: bool, display: bool, imgWidth: int, imgHeight: int)

  datatype Projection = Orthogonal | Perspective

  /** A pixel size: the render settings' default, or the text given to --imgsize. */
  datatype Pixels = Preset(n: int) | Requested(text: string)

  /**
   * The camera handed to a PNG export. `setup` holds the fields of --camera
   * when it was given; `projection` is None when the camera keeps its own
   * default.
   */
  datatype Camera = Camera(
    setup: Option<seq<string>>,
    viewall: bool,
    autocenter: bool,
    projection: Option<Projection>,
    width: Pixels,
    height: Pixels)

  datatype CameraError = CameraArity | UnknownProjection | ImgsizeArity

  /** The accepted spellings of --projection. */
  function ProjectionNamed(s: string): Option<Projection>
  {
    if s in {"o", "ortho", "orthogonal"} then Some(Orthogonal)
    else if s in {"p", "perspective"} then Some(Perspective)
    else None
  }

  /**
   * The camera that the options describe: --camera needs 6 (vector) or 7
   * (gimbal) fields, --projection one of the accepted spellings, --imgsize
   * 2 fields; they are checked in that order and the first violation is
   * the one reported.
   */
  function CameraSpec(o: Options, host: Host): Result<Camera, CameraError>
  {
    if o.camera.Some? && |Split(o.camera.value, ',')| !in {6, 7} then Failure(CameraArity)
    else if o.projection.Some? && ProjectionNamed(o.projection.value).None? then Failure(UnknownProjection)
    else if o.imgsize.Some? && |Split(o.imgsize.value, ',')| != 2 then Failure(ImgsizeArity)
    else
      var size := if o.imgsize.Some? then Split(o.imgsize.value, ',') else [];
      Success(Camera(
        if o.camera.Some? then Some(Split(o.camera.value, ',')) else None,
        o.viewall,
        o.autocenter,
        if o.projection.Some? then ProjectionNamed(o.projection.value) else None,
        if o.imgsize.Some? then Requested(size[0]) else Preset(host.imgWidth),
        if o.imgsize.Some? then Requested(size[1]) else Preset(host.imgHeight)))
  }

  /** get_camera: builds the camera field by field, stopping at the first bad option. */
  method GetCamera(o: Options, host: Host) returns (r: Result<Camera, CameraError>)
    ensures r == CameraSpec(o, host)
  {
    var camera := Camera(None, false, false, None, Preset(host.imgWidth), Preset(host.imgHeight));
    if o.camera.Some? {
      var strs := Split(o.camera.value, ',');
      if |strs| == 6 || |strs| == 7 {
        camera := camera.(setup := Some(strs));
      } else {
        return Failure(CameraArity);
      }
    }
    if o.viewall {
      camera := camera.(viewall := true);
    }
    if o.autocenter {
      camera := camera.(autocenter := true);
    }
    if o.projection.Some? {
      var proj := o.projection.value;
      if proj == "o" || proj == "ortho" || proj == "orthogonal" {
        camera := camera.(projection := Some(Orthogonal));
      } else if proj == "p" || proj == "perspective" {
        camera := camera.(projection := Some(Perspective));
      } else {
        return Failure(UnknownProjection);
      }
    }
    var w, h := Preset(host.imgWidth), Preset(host.imgHeight);
    if o.imgsize.Some? {
      var strs := Split(o.imgsize.value, ',');
      if |strs| != 2 {
        return Failure(ImgsizeArity);
      } else {
        w, h := Requested(strs[0]), Requested(strs[1]);
      }
    }
    camera := camera.(width := w, height := h);
    return Success(camera);
  }

  /** --camera is refused exactly when it does not hold 5 or 6 commas. */
  lemma CameraArityRule(o: Options, host: Host)
    requires o.camera.Some?
    ensures CameraSpec(o, host) == Failure(CameraArity) <==> Occurrences(o.camera.value, ',') !in {5, 6}
  {
    SplitCount(o.camera.value, ',');
  }

  /** With a valid --camera and --projection, --imgsize is refused exactly when it does not hold one comma. */
  lemma ImgsizeArityRule(o: Options, host: Host)
    requires o.imgsize.Some?
    requires o.camera.Some? ==> Occurrences(o.camera.value, ',') in {5, 6}
    requires o.projection.Some? ==> ProjectionNamed(o.projection.value).Some?
    ensures CameraSpec(o, host) == Failure(ImgsizeArity) <==> Occurrences(o.imgsize.value, ',') != 1
  {
    SplitCount(o.imgsize.value, ',');
    if o.camera.Some? {
      SplitCount(o.camera.value, ',');
    }
  }

  /**
   * An accepted camera carries the --camera fields and the --imgsize
   * fields unchanged: written back with commas they are the option texts.
   */
  lemma CameraKeepsFields(o: Options, host: Host)
    requires CameraSpec(o, host).Success?
    ensures var cam := CameraSpec(o, host).value;
      && (o.camera.Some? <==> cam.setup.Some?)
      && (o.camera.Some? ==> JoinWith(cam.setup.value, ',') == o.camera.value)
      && (o.imgsize.Some? ==> JoinWith([cam.width.text, cam.height.text], ',') == o.imgsize.value)
      && (o.imgsize.None? ==> cam.width == Preset(host.imgWidth) && cam.height == Preset(host.imgHeight))
  {
    if o.camera.Some? {
      JoinSplit(o.camera.value, ',');
    }
    if o.imgsize.Some? {
      var fields := Split(o.imgsize.value, ',');
      JoinSplit(o.imgsize.value, ',');
      assert fields == [fields[0], fields[1]];
    }
  }

  /**
   * The render mode: --preview=throwntogether selects ThrownTogether,
   * otherwise --render selects Cgal, otherwise OpenCsg.
   */
  function RendererFor(render: bool, preview: Option<string>): Renderer
  {
    if preview == Some("throwntogether") then ThrownTogether
    else if render then Cgal
    else OpenCsg
  }

  /** The renderer rules stated one by one. */
  lemma RendererRules(render: bool, preview: Option<string>)
    ensures RendererFor(false, None) == OpenCsg
    ensures RendererFor(true, None) == Cgal
    ensures RendererFor(render, Some("throwntogether")) == ThrownTogether
    ensures preview != Some("throwntogether") ==> RendererFor(render, preview) == RendererFor(render, None)
  {
  }

  /** The script text the -D assignments add: each one followed by ";\n", in order. */
  function Definitions(defs: seq<string>): string
  {
    if defs == [] then []
    else Definitions(defs[..|defs| - 1]) + defs[|defs| - 1] + ";\n"
  }

  /** main's loop over the -D values, appending to the global command text. */
  method AppendDefinitions(commands: string, defs: seq<string>) returns (r: string)
    ensures r == commands + Definitions(defs)
  {
    r := commands;
    for i := 0 to |defs|
      invariant r == commands + Definitions(defs[..i])
    {
      assert defs[..i + 1][..i] == defs[..i];
      r := r + defs[i];
      r := r + ";\n";
    }
    assert defs[..|defs|] == defs;
  }

  lemma {:induction false} DefinitionsAppend(a: seq<string>, b: seq<string>)
    ensures Definitions(a + b) == Definitions(a) + Definitions(b)
    decreases |b|
  {
    if b == [] {
      assert a + b == a;
    } else {
      var whole := a + b;
      assert whole[..|whole| - 1] == a + b[..|b| - 1];
      assert whole[|whole| - 1] == b[|b| - 1];
      DefinitionsAppend(a, b[..|b| - 1]);
    }
  }

  /**
   * The k-th -D value, followed by ";\n", stands right after the text of
   * the values before it.
   */
  lemma DefinitionPlaced(defs: seq<string>, k: nat)
    requires k < |defs|
    ensures var at := |Definitions(defs[..k])|;
      && at + |defs[k]| + 2 <= |Definitions(defs)|
      && Definitions(defs)[at..at + |defs[k]| + 2] == defs[k] + ";\n"
  {
    var before, here, after := defs[..k], [defs[k]], defs[k + 1..];
    assert defs == before + here + after;
    DefinitionsAppend(before + here, after);
    DefinitionsAppend(before, here);
    assert here[..0] == [];
    assert Definitions(here) == defs[k] + ";\n";
  }

  /** The output file options that were given, in the order -o, -s, -x. */
  function OutputOptions(o: Options): seq<string>
  {
    (if o.outFile.Some? then [o.outFile.value] else [])
    + (if o.stlFile.Some? then [o.stlFile.value] else [])
    + (if o.dxfFile.Some? then [o.dxfFile.value] else [])
  }

  datatype UsageCause = Unparsable | HelpRequested | SeveralOutputs | SeveralInputs | NoInputFile | NoDisplay

  /** Everything a batch run is given. */
  datatype BatchJob = BatchJob(
    input: string,
    output: string,
    deps: Option<string>,
    make: Option<string>,
    camera: Camera,
    renderer: Renderer,
    commands: string,
    csgLimit: Option<nat>,
    debug: string)

  /** What main does with the options. */
  datatype Launch =
    | Usage(cause: UsageCause)        // help text, exit status 1
    | Version                         // version text, exit status 1
    | Info(viewCreated: bool)         // build information, exit status 0 (1 when no offscreen view)
    | CameraRejected(error: CameraError) // exit status 1
    | Interactive(inputs: seq<string>)
    | Batch(job: BatchJob)

  /**
   * The decision main takes, stated rule by rule: a usage error, --help,
   * --version and --info end the process first; then at most one output
   * option and one input file are allowed; then the camera options must be
   * valid; then an output option means a batch run over the single input
   * file, and no output option means the GUI.
   */
  function LaunchSpec(o: Options, host: Host): Launch
  {
    if o.unparsable then Usage(Unparsable)
    else if o.help then Usage(HelpRequested)
    else if o.version then Version
    else if o.info then Info(host.offscreenView)
    else if |OutputOptions(o)| > 1 then Usage(SeveralOutputs)
    else if |o.inputFiles| > 1 then Usage(SeveralInputs)
    else match CameraSpec(o, host)
      case Failure(e) => CameraRejected(e)
      case Success(camera) =>
        if OutputOptions(o) == [] then
          if host.display then Interactive(o.inputFiles) else Usage(NoDisplay)
        else if o.inputFiles == [] then Usage(NoInputFile)
        else Batch(BatchJob(
          o.inputFiles[0], OutputOptions(o)[0], o.depsFile, o.makeCommand, camera,
          RendererFor(o.render, o.preview), Definitions(o.defines), o.csgLimit,
          if o.debug.Some? then o.debug.value else ""))
  }

  /** The renderer of main: OpenCSG unless --render, and --preview=throwntogether over both. */
  method ChooseRenderer(render: bool, preview: Option<string>) returns (r: Renderer)
    ensures preview == Some("throwntogether") ==> r == ThrownTogether
    ensures preview != Some("throwntogether") ==> (r == Cgal <==> render) && (r == OpenCsg <==> !render)
    ensures r == RendererFor(render, preview)
  {
    r := OpenCsg;
    if render {
      r := Cgal;
    }
    if preview.Some? {
      if preview.value == "throwntogether" {
        r := ThrownTogether;
      }
    }
  }

  /**
   * -o, then -s, then -x: each sets the output file, and any of them
   * after another is a usage error.
   */
  method SelectOutputOption(o: Options) returns (output: Option<string>, several: bool)
    ensures several <==> |OutputOptions(o)| > 1
    ensures !several ==> (output.Some? <==> OutputOptions(o) != [])
    ensures !several && output.Some? ==> output.value == OutputOptions(o)[0]
  {
    // The output file is still unset when -o is looked at.
    output := None;
    if o.outFile.Some? {
      output := o.outFile;
    }
    if o.stlFile.Some? {
      if output.Some? {
        return output, true;
      }
      output := o.stlFile;
    }
    if o.dxfFile.Some? {
      if output.Some? {
        return output, true;
      }
      output := o.dxfFile;
    }
    several := false;
  }

  /**
   * main, from the parsed options to the launch decision, in the order the
   * program tests them. The global command text starts empty.
   */
  method SelectLaunch(o: Options, host: Host) returns (l: Launch)
    ensures l == LaunchSpec(o, host)
  {
    if o.unparsable {
      return Usage(Unparsable);
    }
    var debug := "";
    if o.debug.Some? {
      debug := o.debug.value;
    }
    if o.help {
      return Usage(HelpRequested);
    }
    if o.version {
      return Version;
    }
    if o.info {
      return Info(host.offscreenView);
    }

    var renderer := ChooseRenderer(o.render, o.preview);
    var csgLimit: Option<nat> := None;
    if o.csgLimit.Some? {
      csgLimit := o.csgLimit;
    }
    var output, several := SelectOutputOption(o);
    if several {
      return Usage(SeveralOutputs);
    }
    var deps := o.depsFile;
    var make := o.makeCommand;

    var commands := AppendDefinitions("", o.defines);

    if |o.inputFiles| > 1 {
      return Usage(SeveralInputs);
    }
    var camera := GetCamera(o, host);
    if camera.Failure? {
      return CameraRejected(camera.error);
    }

    if output.Some? {
      if |o.inputFiles| == 0 {
        return Usage(NoInputFile);
      }
      l := Batch(BatchJob(o.inputFiles[0], output.value, deps, make, camera.value,
                          renderer, commands, csgLimit, debug));
    } else if host.display {
      l := Interactive(o.inputFiles);
    } else {
      l := Usage(NoDisplay);
    }
  }

  /**
   * A batch run has exactly one output option, and writes the file it
   * names; two or more output options end in the usage text unless an
   * earlier rule ended the process already.
   */
  lemma OneOutputOption(o: Options, host: Host)
    ensures LaunchSpec(o, host).Batch? ==>
      |OutputOptions(o)| == 1 && LaunchSpec(o, host).job.output == OutputOptions(o)[0]
    ensures !o.unparsable && !o.help && !o.version && !o.info && |OutputOptions(o)| > 1 ==>
      LaunchSpec(o, host) == Usage(SeveralOutputs)
  {
  }
}

=== FILE: pipeline.dfy ===
/**
 * The program from its parsed options to its exit status: main decides
 * what to do (module CommandLine) and, for a batch run, hands the single
 * input file, the single output file, the dependency file, the camera,
 * the renderer and the -D text to cmdline (module Batch).
 */
module Pipeline {
  import opened Wrappers
  import opened CommandLine
  import opened Batch
  import opened BatchProperties

  /**
   * The exit status and the batch trace of one invocation. The usage
   * text and the version text end the process with status 1; --info with
   * 0, or 1 when its offscreen view cannot be created; a rejected camera
   * with 1. The GUI's status is whatever its event loop returns, given
   * here as `guiStatus`. Only a batch run has a trace.
   */
  ghost function Launched(o: Options, host: Host, env: Env, guiStatus: int): Outcome
  {
    match LaunchSpec(o, host)
    case Usage(_) => Outcome(1, [])
    case Version => Outcome(1, [])
    case Info(viewCreated) => Outcome(if viewCreated then 0 else 1, [])
    case CameraRejected(_) => Outcome(1, [])
    case Interactive(_) => Outcome(guiStatus, [])
    case Batch(job) => Run(job.deps, job.input, job.output, job.camera, job.renderer, job.commands, env)
  }

  /** main: decide, then either stop, run the GUI, or run cmdline. */
  method Process(o: Options, host: Host, env: Env, guiStatus: int) returns (rc: int, trace: seq<Step>)
    ensures Outcome(rc, trace) == Launched(o, host, env, guiStatus)
  {
    var launch := SelectLaunch(o, host);
    match launch {
      case Usage(_) =>
        rc, trace := 1, [];
      case Version =>
        rc, trace := 1, [];
      case Info(viewCreated) =>
        rc, trace := if viewCreated then 0 else 1, [];
      case CameraRejected(_) =>
        rc, trace := 1, [];
      case Interactive(_) =>
        rc, trace := guiStatus, [];
      case Batch(job) =>
        rc, trace := Cmdline(job.deps, job.input, job.camera, job.output, job.renderer, job.commands, env);
    }
  }

  /** Outside the GUI the process ends with status 0 or 1, and only a batch run does any work. */
  lemma ExitStatusIsBinary(o: Options, host: Host, env: Env, guiStatus: int)
    ensures var l := Launched(o, host, env, guiStatus);
      && (!LaunchSpec(o, host).Interactive? ==> l.code == 0 || l.code == 1)
      && (l.trace != [] <==> LaunchSpec(o, host).Batch?)
  {
    if LaunchSpec(o, host).Batch? {
      BatchStatus(LaunchSpec(o, host).job, env);
    }
  }

  lemma BatchStatus(job: BatchJob, env: Env)
    ensures var r := Run(job.deps, job.input, job.output, job.camera, job.renderer, job.commands, env);
      (r.code == 0 || r.code == 1) && r.trace != []
  {
    ExitStatusMeaning(job.deps, job.input, job.output, job.camera, job.renderer, job.commands, env);
  }

  /**
   * In a batch run with a known suffix and a readable input, the parser
   * sees the file, a newline, then the -D assignments.
   */
  lemma BatchParsesDefinitions(o: Options, host: Host, env: Env, guiStatus: int)
    requires LaunchSpec(o, host).Batch?
    requires OutputFormat(LaunchSpec(o, host).job.output).Some? && env.inputReadable
    ensures var job := LaunchSpec(o, host).job;
      var t := Launched(o, host, env, guiStatus).trace;
      var n := |Loading(OutputFormat(job.output).value, job.input)|;
      |t| > n && t[n] == Step(Invoker, Parse(ScriptText(env.contents, Definitions(o.defines))))
  {
    var job := LaunchSpec(o, host).job;
    var f := OutputFormat(job.output).value;
    RunDispatches(job.deps, job.input, job.output, job.camera, job.renderer, job.commands, env, f);
    ParseThenInstantiate(f, job.deps, job.input, job.output, job.camera, job.renderer, job.commands, env);
  }

  /**
   * In that script every -D assignment appears in order, each followed by
   * a semicolon and a newline, after the file and its newline.
   */
  lemma ScriptHoldsDefinition(contents: string, defs: seq<string>, k: nat)
    requires k < |defs|
    ensures var text := ScriptText(contents, Definitions(defs));
      var at := |contents| + 1 + |Definitions(defs[..k])|;
      && text[..|contents| + 1] == contents + "\n"
      && at + |defs[k]| + 2 <= |text|
      && text[at..at + |defs[k]| + 2] == defs[k] + ";\n"
  {
    DefinitionPlaced(defs, k);
    var d := Definitions(defs);
    var at := |Definitions(defs[..k])|;
    var text := ScriptText(contents, d);
    assert text == (contents + "\n") + d;
    assert text[|contents| + 1 + at..|contents| + 1 + at + |defs[k]| + 2] == d[at..at + |defs[k]| + 2];
  }

  /** The options of `openscad -o <output> <input>`. */
  function PlainBatch(input: string, output: string): Options
  {
    Options(false, false, false, false, None, false, None, None, None, false, false, None, None,
            Some(output), None, None, None, None, [], [input])
  }

  /** A machine with an offscreen view and no display; 512 by 512 default pixels. */
  const Headless := Host(true, false, 512, 512)

  /** The camera get_camera builds when no camera option is given on that machine. */
  const DefaultCamera := Camera(None, false, false, None, Preset(512), Preset(512))

  lemma PlainBatchLaunch(input: string, output: string)
    ensures LaunchSpec(PlainBatch(input, output), Headless)
         == Batch(BatchJob(input, output, None, None, DefaultCamera, OpenCsg, "", None, ""))
  {
    assert OutputOptions(PlainBatch(input, output)) == [output];
    assert Definitions([]) == "";
  }

  /** `openscad -o <output> <input>` is the batch run of cmdline with no dependency file and no -D. */
  lemma PlainBatchRuns(input: string, output: string, env: Env)
    ensures Launched(PlainBatch(input, output), Headless, env, 0)
         == Run(None, input, output, DefaultCamera, OpenCsg, "", env)
  {
    PlainBatchLaunch(input, output);
  }

  /** With a known suffix that run is the dispatch on the format the suffix selects. */
  lemma PlainBatchDispatches(input: string, output: string, env: Env, f: Format)
    requires OutputFormat(output) == Some(f)
    ensures Launched(PlainBatch(input, output), Headless, env, 0)
         == Dispatch(f, None, input, output, DefaultCamera, OpenCsg, "", env)
  {
    PlainBatchRuns(input, output, env);
    RunDispatches(None, input, output, DefaultCamera, OpenCsg, "", env, f);
  }

  /**
   * A script whose top level is a solid, exported to `<name>.stl`:
   * status 0, the geometry is evaluated exactly once and the solid is the
   * last thing written.
   */
  lemma SolidToStl(input: string, name: string, env: Env)
    requires env.inputReadable && env.parses && env.cgal && env.geometry == Some(3)
    ensures var l := Launched(PlainBatch(input, name + ".stl"), Headless, env, 0);
      && l.code == 0
      && Times(l.trace, EvalGeometry) == 1
      && l.trace[|l.trace| - 1] == Step(Invoker, Write(Stl, GeometryExport))
  {
    SuffixSelects(name, Stl);
    PlainBatchDispatches(input, name + ".stl", env, Stl);
    DimensionGate(Stl, None, input, name + ".stl", DefaultCamera, OpenCsg, "", env, 3);
    DispatchEvaluations(Stl, None, input, name + ".stl", DefaultCamera, OpenCsg, "", env);
    GeometryEvaluationTable(OpenCsg);
  }

  /**
   * The same script dumped as a CSG tree to `<name>.csg`: status 0, the
   * geometry is never evaluated, and the tree is written from the
   * document directory.
   */
  lemma SolidToCsg(input: string, name: string, env: Env)
    requires env.inputReadable && env.parses && env.outputOpens
    ensures var l := Launched(PlainBatch(input, name + ".csg"), Headless, env, 0);
      && l.code == 0
      && Times(l.trace, EvalGeometry) == 0
      && l.trace[|l.trace| - 1] == Step(Document, Write(Csg, NodeTree))
  {
    SuffixSelects(name, Csg);
    CsgDump(input, name + ".csg", env);
    PlainBatchDispatches(input, name + ".csg", env, Csg);
  }

  lemma CsgDump(input: string, output: string, env: Env)
    requires env.inputReadable && env.parses && env.outputOpens
    ensures var o := Dispatch(Csg, None, input, output, DefaultCamera, OpenCsg, "", env);
      && o.code == 0
      && Times(o.trace, EvalGeometry) == 0
      && o.trace[|o.trace| - 1] == Step(Document, Write(Csg, NodeTree))
  {
    DispatchEvaluations(Csg, None, input, output, DefaultCamera, OpenCsg, "", env);
    GeometryEvaluationTable(OpenCsg);
    DumpWritten(Csg, None, input, output, DefaultCamera, OpenCsg, "", env);
  }

  /** A script with no top-level object exported to `<name>.off`: status 1 and no output file touched. */
  lemma NothingToOff(input: string, name: string, env: Env)
    requires env.inputReadable && env.parses && env.cgal && env.geometry.None?
    ensures var l := Launched(PlainBatch(input, name + ".off"), Headless, env, 0);
      && l.code == 1
      && l.trace[|l.trace| - 1].action == Message(NoTopLevelObject)
      && Every(l.trace, Quiet)
      && Every(l.trace, NoEchoStream)
  {
    SuffixSelects(name, Off);
    PlainBatchDispatches(input, name + ".off", env, Off);
    GeometryEvaluationTable(OpenCsg);
    EmptyGeometryAborts(Off, None, input, name + ".off", DefaultCamera, OpenCsg, "", env);
  }

  /** A flat object exported to `<name>.stl`: status 1, a dimension error, and no output written. */
  lemma FlatToStl(input: string, name: string, env: Env)
    requires env.inputReadable && env.parses && env.cgal && env.geometry == Some(2)
    ensures var l := Launched(PlainBatch(input, name + ".stl"), Headless, env, 0);
      && l.code == 1
      && l.trace[|l.trace| - 1].action == Message(NotDimension(3))
      && Every(l.trace, Unwritten)
  {
    SuffixSelects(name, Stl);
    PlainBatchDispatches(input, name + ".stl", env, Stl);
    DimensionGate(Stl, None, input, name + ".stl", DefaultCamera, OpenCsg, "", env, 2);
  }

  /** An input that cannot be read: status 1, and nothing is parsed. */
  lemma UnreadableInput(input: string, name: string, env: Env)
    requires !env.inputReadable
    ensures var l := Launched(PlainBatch(input, name + ".stl"), Headless, env, 0);
      && l.code == 1
      && l.trace == [Step(Invoker, RegisterDep(input)), Step(Invoker, OpenInput(input)),
                     Step(Invoker, Message(CantOpenInput))]
  {
    SuffixSelects(name, Stl);
    PlainBatchDispatches(input, name + ".stl", env, Stl);
  }
}

=== FILE: text.dfy ===
/**
 * String helpers the batch pipeline relies on: ASCII lower-casing (as
 * boost::algorithm::to_lower does in the "C" locale), the extension of a
 * path (as boost::filesystem, version 3, computes it) and splitting on a
 * separator character (as boost::split with is_any_of and no token
 * compression).
 */
module Text {

  /** Lower-cases one ASCII letter; every other character is unchanged. */
  function LowerChar(c: char): char
  {
    if 'A' <= c <= 'Z' then (c as int - 'A' as int + 'a' as int) as char else c
  }

  function ToLower(s: string): (r: string)
    ensures |r| == |s|
    ensures forall i :: 0 <= i < |s| ==> r[i] == LowerChar(s[i])
  {
    if s == [] then [] else [LowerChar(s[0])] + ToLower(s[1..])
  }

  /** Lower-casing never creates nor removes a '.' or a '/'. */
  lemma LowerCharKeepsPunctuation(c: char)
    ensures LowerChar(c) == '.' <==> c == '.'
    ensures LowerChar(c) == '/' <==> c == '/'
  {
  }

  lemma {:induction false} ToLowerIdempotent(s: string)
    ensures ToLower(ToLower(s)) == ToLower(s)
  {
    var once := ToLower(s);
    var twice := ToLower(once);
    forall i | 0 <= i < |s|
      ensures twice[i] == once[i]
    {
      assert once[i] == LowerChar(s[i]);
    }
  }

  /** The last component of a path: the longest suffix without a '/'. */
  function BaseName(path: string): (name: string)
    ensures '/' !in name
    ensures |name| <= |path|
  {
    if path == [] || path[|path| - 1] == '/' then []
    else BaseName(path[..|path| - 1]) + [path[|path| - 1]]
  }

  /** The part of `name` from its last '.' on, or [] when it has no '.'. */
  function DotSuffix(name: string): (ext: string)
    ensures ext == [] || (ext[0] == '.' && '.' !in ext[1..])
    ensures |ext| <= |name|
    ensures forall c :: c in ext ==> c in name
    ensures ext == [] ==> '.' !in name
  {
    if name == [] then []
    else if name[|name| - 1] == '.' then ['.']
    else
      var ext := DotSuffix(name[..|name| - 1]);
      if ext == [] then [] else ext + [name[|name| - 1]]
  }

  /**
   * The extension of a path: the last component from its last '.' on.
   * The components "." and ".." have none, and neither has a component
   * without a '.'.
   */
  function Extension(path: string): (ext: string)
    ensures ext == [] || (ext[0] == '.' && '.' !in ext[1..] && '/' !in ext)
  {
    var name := BaseName(path);
    if name == "." || name == ".." then [] else DotSuffix(name)
  }

  lemma {:induction false} BaseNameAppend(path: string, tail: string)
    requires '/' !in tail
    ensures BaseName(path + tail) == BaseName(path) + tail
    decreases |tail|
  {
    if tail == [] {
      assert path + tail == path;
    } else {
      var whole := path + tail;
      var init := tail[..|tail| - 1];
      assert whole[..|whole| - 1] == path + init;
      assert whole[|whole| - 1] == tail[|tail| - 1];
      BaseNameAppend(path, init);
      assert tail == init + [tail[|tail| - 1]];
    }
  }

  lemma {:induction false} DotSuffixAppend(name: string, ext: string)
    requires ext != [] && ext[0] == '.' && '.' !in ext[1..]
    ensures DotSuffix(name + ext) == ext
    decreases |ext|
  {
    var whole := name + ext;
    if |ext| == 1 {
      assert whole[|whole| - 1] == '.';
      assert ext == ['.'];
    } else {
      var init := ext[..|ext| - 1];
      assert init[1..] == ext[1..|ext| - 1];
      assert whole[..|whole| - 1] == name + init;
      assert whole[|whole| - 1] == ext[|ext| - 1] == ext[1..][|ext| - 2];
      DotSuffixAppend(name, init);
      assert ext == init + [ext[|ext| - 1]];
    }
  }

  /** A path that ends in a well-formed extension has exactly that extension. */
  lemma ExtensionOfNamed(stem: string, ext: string)
    requires |ext| >= 2 && ext[0] == '.' && '.' !in ext[1..] && '/' !in ext
    ensures Extension(stem + ext) == ext
  {
    BaseNameAppend(stem, ext);
    DotSuffixAppend(BaseName(stem), ext);
    var name := BaseName(stem) + ext;
    assert name[|name| - 1] == ext[|ext| - 1] == ext[1..][|ext| - 2];
  }

  /**
   * The last component is the path's tail after its last '/': together
   * with '/' not occurring in it, this pins BaseName down completely.
   */
  lemma {:induction false} BaseNameIsTail(path: string)
    ensures path[|path| - |BaseName(path)|..] == BaseName(path)
    ensures |BaseName(path)| == |path| || path[|path| - |BaseName(path)| - 1] == '/'
    decreases |path|
  {
    if path != [] && path[|path| - 1] != '/' {
      var init := path[..|path| - 1];
      BaseNameIsTail(init);
      var name := BaseName(init);
      assert path[|path| - |name| - 1..] == init[|init| - |name|..] + [path[|path| - 1]];
      if |name| < |init| {
        assert path[|path| - |name| - 2] == init[|init| - |name| - 1];
      }
    }
  }

  /** The suffix is the name's tail from its last '.' on. */
  lemma {:induction false} DotSuffixIsTail(name: string)
    ensures name[|name| - |DotSuffix(name)|..] == DotSuffix(name)
    decreases |name|
  {
    if name != [] && name[|name| - 1] != '.' {
      var init := name[..|name| - 1];
      DotSuffixIsTail(init);
      var ext := DotSuffix(init);
      if ext != [] {
        assert name[|name| - |ext| - 1..] == init[|init| - |ext|..] + [name[|name| - 1]];
      }
    }
  }

  /** A path's extension is the path's own tail. */
  lemma ExtensionIsTail(path: string)
    ensures |Extension(path)| <= |path|
    ensures path[|path| - |Extension(path)|..] == Extension(path)
  {
    var name := BaseName(path);
    BaseNameIsTail(path);
    if name != "." && name != ".." {
      DotSuffixIsTail(name);
      var ext := DotSuffix(name);
      var tail := path[|path| - |ext|..];
      forall i | 0 <= i < |ext|
        ensures tail[i] == ext[i]
      {
        assert ext[i] == name[|name| - |ext| + i];
        assert name[|name| - |ext| + i] == path[|path| - |name| + (|name| - |ext| + i)];
      }
    }
  }

  /** Number of occurrences of `c` in `s`. */
  function Occurrences(s: string, c: char): nat
  {
    if s == [] then 0 else (if s[0] == c then 1 else 0) + Occurrences(s[1..], c)
  }

  /** The fields of `s` between occurrences of `sep`; empty fields are kept. */
  function Split(s: string, sep: char): (fields: seq<string>)
    ensures |fields| >= 1
    ensures forall i :: 0 <= i < |fields| ==> sep !in fields[i]
  {
    if s == [] then [[]]
    else
      var rest := Split(s[1..], sep);
      if s[0] == sep then [[]] + rest else [[s[0]] + rest[0]] + rest[1..]
  }

  /** The fields written back with `sep` between consecutive ones. */
  function JoinWith(fields: seq<string>, sep: char): string
  {
    if |fields| == 0 then []
    else if |fields| == 1 then fields[0]
    else fields[0] + [sep] + JoinWith(fields[1..], sep)
  }

  /** A string with k separators has k + 1 fields. */
  lemma {:induction false} SplitCount(s: string, sep: char)
    ensures |Split(s, sep)| == Occurrences(s, sep) + 1
  {
    if s != [] {
      SplitCount(s[1..], sep);
    }
  }

  /** Splitting loses nothing: joining the fields gives the string back. */
  lemma {:induction false} JoinSplit(s: string, sep: char)
    ensures JoinWith(Split(s, sep), sep) == s
  {
    if s != [] {
      JoinSplit(s[1..], sep);
      var rest := Split(s[1..], sep);
      if s[0] == sep {
        var fields := [[]] + rest;
        assert fields[1..] == rest;
        assert JoinWith(fields, sep) == fields[0] + [sep] + JoinWith(rest, sep);
      } else {
        var fields := [[s[0]] + rest[0]] + rest[1..];
        if |rest| == 1 {
          assert JoinWith(fields, sep) == [s[0]] + rest[0];
        } else {
          assert fields[1..] == rest[1..];
          assert JoinWith(rest, sep) == rest[0] + [sep] + JoinWith(rest[1..], sep);
          assert JoinWith(fields, sep) == [s[0]] + rest[0] + [sep] + JoinWith(rest[1..], sep);
        }
      }
      assert s == [s[0]] + s[1..];
    }
  }
}

=== FILE: wrappers.dfy ===
/** Option and Result wrappers used across the model. */
module Wrappers {

  /** A value that may be absent, in place of a null pointer. */
  datatype Option<+T> = None | Some(value: T)

  /** Either a value or the error that stopped its construction. */
  datatype Result<+R, +E> = Success(value: R) | Failure(error: E)
}
